=== FILE: README.md ===
# Affiliate-product Telegram bots: a verified model

Three small Python bots each ask the AliExpress affiliate API for a product and
post it to a Telegram channel:

- `aliexpress_bot` makes one run. It signs a `hotproduct.query` request and
  announces the product in Markdown: as a photo caption when the product has an
  image url, as plain text otherwise.
- `aliexpress_bot_signed` loops once an hour. It signs a `product.query` request
  and posts the product as a photo with an HTML caption.
- `simple-telegram-bot` loops the same way with the same HTML caption. Its
  request declares `sign_method = sha256` but is never signed.

This project models the pure part of each script and proves properties of it.
That part is:

- building the parameter dict;
- computing the request signature (sort by key, concatenate `key+value`, wrap in
  the secret, SHA-256, upper-case hex);
- attaching it under `sign`;
- reading the first product out of the decoded JSON response;
- the Telegram endpoint and payload;
- the two message templates;
- what one run or one loop pass does with the fetched product.

Modules, one per file or concept:

- `Wrappers`: `Option` and `Result`.
- `Strings`: Python's `str` order, first-occurrence search, prefix and suffix
  stripping.
- `Decimal`: `str(int)` and its reading back.
- `Bytes`, `Hex`, `Utf8`: bytes, `hexdigest().upper()`, and UTF-8 encoding with
  a strict decoder.
- `Values`: the Python values and the insertion-ordered parameter `dict`.
- `Sorting`: `sorted(params.items())`.
- `Signer`: both `generate_signature` copies, attaching `sign`, and the check
  the receiving API makes.
- `JsonValues`, `Response`: the decoded JSON tree and `fetch_product`'s reading
  of it.
- `Telegram`: endpoints, payloads, templates and their parsers.
- `AliexpressBot`, `AliexpressBotSigned`, `SimpleTelegramBot`: each script's
  request and control flow.

What the model makes explicit:

- **Only mappings are signed.** A parameter `dict` is a sequence of pairs with
  distinct keys. The signature depends only on the mapping the dict denotes, not
  on insertion order (`Signer.SignatureDependsOnlyOnMapping`).
- **SHA-256 is a parameter.** It is any function from bytes to 32 bytes. Every
  signing property holds for all such functions.
- **The two `generate_signature` copies differ on an unset secret.**
  aliexpress_bot inserts the secret with an f-string, so an unset
  `APP_SECRET` signs as the text `None`. aliexpress_bot_signed joins with `+`,
  which raises `TypeError` for `None`. They agree whenever the secret is set
  (`Signer.GenerateSignatureStrict`).
- **Not every failure becomes "no product".** In aliexpress_bot_signed, the
  signing (line 46) and `requests.get` (line 50) run before the `try`. In
  simple-telegram-bot, `requests.get` (line 28) does too. So a missing secret or
  a transport error raises out of `fetch_product` and ends the `while True`
  loop. This model follows the code: those fetches return
  `Result<Option<Product>, Crash>`. Only aliexpress_bot, whose `try` covers the
  request, turns every failure of the request into `None`. Its signing (line
  77) still runs before the `try`. An unset secret cannot make that step fail,
  but a lone surrogate still raises there (see "Left out").
- **The receiving side.** The model includes the API's check of a signed
  request (`Signer.Verifies`): drop `sign`, re-sign, compare. This gives the
  signing step a partner to prove against.

## Model

| member | source | states |
|---|---|---|
| Strings.LessIrreflexive | aliexpress_bot/main.py:29 | No key sorts before itself in Python's string order. |
| Strings.LessTransitive | aliexpress_bot/main.py:29 | Python's string order is transitive. |
| Strings.LessTotal | aliexpress_bot/main.py:29 | Any two distinct keys are ordered one way or the other, so sorting a dict's items has one answer. |
| Values.Str | aliexpress_bot/main.py:30 | The text an f-string inserts: a `str` value as is, `None` as `None`, an `int` as decimal text that reads back as the same integer. Reading back accepts only canonical decimal text, so that text is `str(i)` itself. |
| Decimal.FromIntRoundTrip | aliexpress_bot/main.py:68 | `str(timestamp)` reads back as the timestamp, the sign included. |
| Decimal.ToIntCanonical | aliexpress_bot/main.py:68 | Any text that reads back as an integer is exactly `str()` of that integer: no leading zeros, no `+`, no `-0`. |
| Decimal.FromIntInjective | aliexpress_bot_signed/main.py:20 | Distinct integers have distinct decimal texts, so an `int` value is never confused with another in the signed text. |
| Values.ToMapMembership | aliexpress_bot/main.py:63-75 | In a dict without repeated keys, a pair is present exactly when the mapping holds that key with that value. |
| Values.SameMapSamePairs | aliexpress_bot/main.py:29 | Two dicts with the same mapping hold the same `items()`; only their insertion order can differ. |
| Values.SetItemSpec | aliexpress_bot/main.py:77 | `d[k] = v` keeps the keys distinct and changes the mapping at `k` only. A new key is appended after every earlier pair, which are left as they were. |
| Sorting.SortPermutes | aliexpress_bot/main.py:29 | `sorted(params.items())` holds the same pairs as the dict, each as often as in the dict. |
| Sorting.SortStrictlySorted | aliexpress_bot/main.py:29 | The sorted pairs of a dict have strictly ascending keys. |
| Sorting.SortByKeyCharacterised | aliexpress_bot_signed/main.py:19 | Any strictly ascending arrangement of a dict's pairs is the one sorting produces. |
| Hex.UpperHexRoundTrip | aliexpress_bot/main.py:32 | `hexdigest().upper()` of `n` bytes has `2n` characters from `0-9A-F` and parses back to the bytes. |
| Utf8.EncodeRoundTrip | aliexpress_bot/main.py:32 | `encode("utf-8")` loses nothing: a strict decoder gives back the text. |
| Utf8.EncodeAppend | aliexpress_bot_signed/main.py:23 | Encoding a concatenation concatenates the encodings. |
| Signer.HexUpper | aliexpress_bot/main.py:32 | The signature is 64 characters from `0-9A-F` and reads back as the 32-byte digest. |
| Signer.GenerateSignature | aliexpress_bot/main.py:28-32 | The signature is 64 upper-case hex characters spelling SHA-256 of the UTF-8 bytes of secret + sorted pairs + secret. An unset secret is written as `None`. |
| Signer.GenerateSignatureStrict | aliexpress_bot_signed/main.py:18-24 | Raises `TypeError` exactly when the secret is unset; otherwise it equals aliexpress_bot's signature. |
| Signer.BaseStringFrame | aliexpress_bot/main.py:30-31 | The hashed text starts and ends with the secret. Its length is twice the secret's plus the sum of `len(k) + len(str(v))` over all pairs. |
| Signer.QueryStringLayout | aliexpress_bot/main.py:29-30 | The concatenation lists every pair once, keys strictly ascending. Each key is followed directly by its value's text, with no delimiter, at every position. |
| Signer.QueryStringCharacterised | aliexpress_bot_signed/main.py:19-20 | Concatenating any strictly ascending arrangement of the pairs gives the concatenated text. |
| Signer.SignaturePermutationInvariant | aliexpress_bot/main.py:29 | Two dicts that hold the same pairs in different insertion orders give the same hashed text and the same signature, under both copies of `generate_signature`. |
| Signer.MappingDeterminesQueryString | aliexpress_bot_signed/main.py:19-20 | Two dicts with the same mapping give the same sorted concatenation, whatever their insertion order. |
| Signer.SignatureDependsOnlyOnMapping | aliexpress_bot_signed/main.py:19-24 | Two dicts with the same mapping sign identically under both copies of `generate_signature`. |
| Signer.IntsSignAsDecimal | aliexpress_bot_signed/main.py:20 | Signing a dict with `int` values equals signing it with each `int` replaced by its decimal text. |
| Signer.WorkedExample | aliexpress_bot/main.py:29-31 | `{"a": "1", "b": "2"}` with secret `X` hashes `Xa1b2X` whichever key was inserted first. |
| Signer.AttachSignature | aliexpress_bot/main.py:77 | Attaching adds exactly the key `sign` with the signature's value, keeps the keys distinct, and changes nothing else. For unsigned parameters, the pair is appended. |
| Signer.SignedRequestVerifies | aliexpress_bot/main.py:77 | A request signed with the secret the API holds passes the API's check, since dropping `sign` gives back the signed parameters. |
| Signer.WrongSecretRejected | aliexpress_bot/main.py:31 | A request signed with another secret fails the check whenever SHA-256 distinguishes the two hashed texts. |
| Signer.SignRequest | aliexpress_bot/main.py:77 | Signing unsigned parameters appends only `sign`. The mapping gains only that key, and the result passes the API's check under the secret's text. |
| Signer.SignRequestStrict | aliexpress_bot_signed/main.py:46-47 | With aliexpress_bot_signed's signing, an unset secret raises `TypeError` before anything is attached. Otherwise the result is as for `SignRequest` and passes the check. |
| JsonValues.Display | aliexpress_bot/main.py:99 | `str()` of a scalar JSON value: `null` as `None`, booleans as `True` or `False`, a string as is, an integer as the canonical decimal text that reads back as the integer. |
| Response.Get | aliexpress_bot/main.py:83 | `j[k]` succeeds exactly when `j` is a dict holding `k`, and then gives the value stored under `k`. |
| Response.ExtractProduct | aliexpress_bot/main.py:83-89 | A product comes back exactly when `resp_result.result.products` exists and is a non-empty list whose first entry holds the four fields. The fields are then copied verbatim. |
| Response.FetchGuarded | aliexpress_bot/main.py:80-92 | With the request inside the `try`, a transport failure, an undecodable body or a missing path all give `None`. Otherwise the result is the extracted product. |
| Response.FetchUnguarded | aliexpress_bot_signed/main.py:50-64 | With the request before the `try`, a transport failure raises and nothing else does. What is caught behaves as in aliexpress_bot. |
| Response.EmptyListNoProduct | simple-telegram-bot/main.py:29-39 | An empty `products` list yields no product, and raises nothing. |
| Telegram.Endpoint | aliexpress_bot/main.py:38 | The endpoint is `https://api.telegram.org/bot`, then the token's text (`None` when unset), then `/` and the API method: stripping the base and the method leaves exactly the token. |
| Telegram.MarkdownMessageRoundTrip | aliexpress_bot/main.py:99 | If the title holds no `*` and the price no line break, the Markdown message splits back into exactly its title, price and url. |
| Telegram.MarkdownMessageLayout | aliexpress_bot/main.py:99 | The Markdown message is the fire mark and `*`, the title, `*`, a line break and the price label, then the price, then the link text around the url: each part sits at its place, and the length is the sum. |
| Telegram.MarkdownTitleHoldingDelimiter | aliexpress_bot/main.py:99 | Any title that contains, at any position, the text between title and price makes the message split back wrongly, so some restriction on the title is needed for the round trip. |
| Telegram.HtmlCaptionRoundTrip | aliexpress_bot_signed/main.py:69 | If the title holds no `<` and the price no line break, the HTML caption splits back into exactly its title, price and url. |
| Telegram.HtmlCaptionLayout | aliexpress_bot_signed/main.py:69 | The HTML caption is `<b>`, the title, `</b>`, two line breaks and the price label, then the price, then the link markup around the url: each part sits at its place, and the length is the sum. |
| Telegram.HtmlTitleHoldingDelimiter | aliexpress_bot_signed/main.py:69 | Any title that contains, at any position, the text between title and price makes the caption split back wrongly, so some restriction on the title is needed for the round trip. |
| Telegram.BotPost | aliexpress_bot/main.py:36-51 | A truthy image url selects `sendPhoto` with `photo` = the url and `caption` = the message. Otherwise it selects `sendMessage` with `text` = the message. `chat_id` is the channel and `parse_mode` is `Markdown` either way. |
| Telegram.PhotoPost | aliexpress_bot_signed/main.py:67-76 | Always `sendPhoto`, with the product's image passed through, `parse_mode` `HTML`, and the HTML template filled with `str()` of the title, price and url as caption. When the title holds no `<` and the price no line break, the caption splits back into them. |
| Telegram.SendIfFetched | aliexpress_bot_signed/main.py:84-88 | An exception from the fetch ends the pass with that exception. A product is posted as a photo, and `None` posts nothing. |
| AliexpressBot.RequestParams | aliexpress_bot/main.py:60-75 | Exactly the eleven keys of the literal, distinct and without `sign`. No value is an `int`. `method` is `aliexpress.affiliate.hotproduct.query`, `app_key` and `tracking_id` come from the settings, and `sign_method` is `sha256`. `timestamp` is text that reads back as the timestamp, and `page_size` is the text `1`. |
| AliexpressBot.SignedParams | aliexpress_bot/main.py:77 | The request sent is the unsigned pairs in order, then `sign`. The API's check accepts it under the secret, or under the text `None` when the secret is unset. |
| AliexpressBot.FetchProduct | aliexpress_bot/main.py:59-92 | A product comes back exactly when the API answered the signed request with a decodable body that holds one. The product is then the body's first product. |
| AliexpressBot.Announce | aliexpress_bot/main.py:98-100 | The photo is used exactly when the image url is truthy, and the post then goes to `sendPhoto`, otherwise to `sendMessage`. The channel and Markdown mode are set. The message is the Markdown template filled with `str()` of the title, price and url. When the title holds no `*` and the price no line break, it splits back into them. |
| AliexpressBot.Run | aliexpress_bot/main.py:96-102 | A post is made exactly when a product was fetched, and it is that product's announcement. |
| AliexpressBotSigned.RequestParams | aliexpress_bot_signed/main.py:28-43 | Exactly the eleven keys of the literal, distinct and without `sign`. `method` is `aliexpress.affiliate.product.query`, `app_key` and `tracking_id` come from the settings, and `sign_method` is `sha256`. `timestamp` is the `int` timestamp, whose text reads back as it, and `page_size` is the `int` 1. |
| AliexpressBotSigned.IntsSignAsSent | aliexpress_bot_signed/main.py:34-38 | The `int` timestamp and page size sign as their decimal text. |
| AliexpressBotSigned.SignedParams | aliexpress_bot_signed/main.py:46-47 | An unset secret raises `TypeError`. Otherwise the request is the unsigned pairs in order, then `sign`, and passes the API's check under that secret. |
| AliexpressBotSigned.FetchProduct | aliexpress_bot_signed/main.py:27-64 | `TypeError` exactly when the secret is unset. A connection error exactly when the signed request met a transport failure. Otherwise the result is the caught reading of the answer. |
| AliexpressBotSigned.LoopIteration | aliexpress_bot_signed/main.py:84-88 | A pass fails exactly when the fetch raised, and with the fetch's own exception. It posts exactly when a product came back, as a `sendPhoto` of that product. |
| SimpleTelegramBot.RequestParams | simple-telegram-bot/main.py:16-26 | Exactly the nine keys of the literal, distinct. `method` is `aliexpress.affiliate.product.query`, and `sign_method` is `sha256` but there is no `sign`, so no secret and hash pass the API's check. `app_key` and `tracking_id` come from the settings, `timestamp` is the `int` timestamp, and `page_size` is the `int` 1. |
| SimpleTelegramBot.FetchProduct | simple-telegram-bot/main.py:14-39 | A connection error exactly when the request met a transport failure. Otherwise the result is the caught reading of the answer. |
| SimpleTelegramBot.LoopIteration | simple-telegram-bot/main.py:59-63 | A pass fails exactly when the fetch raised, and with the fetch's own exception. It posts exactly when a product came back, as a `sendPhoto` of that product. |

## Left out

- Network I/O is not modelled. This covers `requests.get`, `requests.post`, status-code checks and printing `response.text`. The API's answer to a request is a parameter (`server`), and a post is returned as a value rather than sent. A failing `requests.post` raises out of `run` or out of the loop; the model returns the post as a value and does not see this, so "a pass fails exactly when the fetch raised" covers only the fetch.
- SHA-256 itself is not modelled. It is a parameter: any function from bytes to a 32-byte digest.
- URL encoding is not modelled, neither `urllib.parse.urlencode` nor the `params=` encoding of `requests`. So the model does not see that `requests` drops a parameter whose value is `None`, while the signature still contains the text `None`.
- Environment variables and the clock are inputs: `Settings` holds the five variables and the timestamp is a natural number. `int(time.time() * 1000)` is not modelled, because floating point is out of scope.
- The `while True` loop and `time.sleep` run forever and are not modelled. One pass of the loop is modelled (`LoopIteration`).
- The logging decorator `wrapper` and all `print` calls are logging only, and are left out.
- `response.json()` is not modelled. A body is a decoded JSON value, or `None` when it does not decode.
- JSON floating-point numbers are left out, so a JSON number is an integer.
- AliexpressBot.Announce: requires the product's title, price and url to be scalar JSON values. Python's `str()` of a list or dict (its `repr`) is not modelled.
- AliexpressBot.Run: requires the fetched product's title, price and url to be scalar JSON values, for the same reason.
- Telegram.PhotoPost: requires the product's title, price and url to be scalar JSON values, for the same reason.
- Telegram.SendIfFetched: requires the fetched product to have scalar title, price and url, for the same reason.
- AliexpressBotSigned.LoopIteration: requires the fetched product to have scalar title, price and url, for the same reason.
- SimpleTelegramBot.LoopIteration: requires the fetched product to have scalar title, price and url, for the same reason.
- Telegram.MarkdownMessageRoundTrip: proved under a simple sufficient condition, a title without `*` and a price without a line break. The template is ambiguous only when the title contains the whole text placed between title and price, or the price the whole text placed between price and url (`Telegram.MarkdownTitleHoldingDelimiter`); the exact condition is not stated.
- Telegram.HtmlCaptionRoundTrip: proved under a simple sufficient condition, a title without `<` and a price without a line break. The exact condition is not stated, for the same reason (`Telegram.HtmlTitleHoldingDelimiter`).
- Lone surrogates are not modelled. A Dafny `char` is a Unicode scalar value, while a Python `str` can hold a lone surrogate, on which `encode("utf-8")` raises `UnicodeEncodeError`. In both `generate_signature` copies (aliexpress_bot/main.py:32, aliexpress_bot_signed/main.py:23) that would raise out of the signing step, which runs before the `try` (aliexpress_bot/main.py:77, aliexpress_bot_signed/main.py:46).
- Response.EmptyListNoProduct: states one instance (an empty product list); the general statement is `Response.ExtractProduct`'s.

=== FILE: aliexpress_bot.dfy ===
/**
 aliexpress_bot: one run that asks the affiliate API for a hot product with a
 signed request, and announces it on Telegram in Markdown.
 */
module AliexpressBot {
  import opened Wrappers
  import opened Values
  import opened JsonValues
  import opened Response
  import opened Telegram
  import opened Signer
  import opened Bytes
  import Decimal

  const Method := "aliexpress.affiliate.hotproduct.query"
  const Fields := "product_id,product_title,product_main_image_url,product_detail_url,sale_price"

  /** The `params` dict literal of `fetch_product`, in its written order. */
  function Pairs(s: Settings, timestampMs: nat): Params {
    [
      Entry("app_key", FromEnv(s.appKey)),
      Entry("method", PyStr(Method)),
      Entry("format", PyStr("json")),
      Entry("sign_method", PyStr("sha256")),
      Entry("timestamp", PyStr(Decimal.FromInt(timestampMs))),
      Entry("v", PyStr("2.0")),
      Entry("tracking_id", FromEnv(s.trackingId)),
      Entry("fields", PyStr(Fields)),
      Entry("target_currency", PyStr("USD")),
      Entry("target_language", PyStr("EN")),
      Entry("page_size", PyStr("1"))
    ]
  }

  lemma PairsDistinct(s: Settings, timestampMs: nat)
    ensures DistinctKeys(Pairs(s, timestampMs))
    ensures SignKey !in Keys(Pairs(s, timestampMs))
  {
  }

  lemma PairsKeys(s: Settings, timestampMs: nat)
    ensures Keys(Pairs(s, timestampMs)) == {"app_key", "method", "format", "sign_method", "timestamp", "v", "tracking_id", "fields", "target_currency", "target_language", "page_size"}
  {
    var r := Pairs(s, timestampMs);
    forall i | 0 <= i < |r|
      ensures r[i].key in {"app_key", "method", "format", "sign_method", "timestamp", "v", "tracking_id", "fields", "target_currency", "target_language", "page_size"}
    {
    }
    assert r[0].key in Keys(r) && r[1].key in Keys(r) && r[2].key in Keys(r) && r[3].key in Keys(r) && r[4].key in Keys(r) && r[5].key in Keys(r) && r[6].key in Keys(r) && r[7].key in Keys(r) && r[8].key in Keys(r) && r[9].key in Keys(r) && r[10].key in Keys(r);
  }

  lemma PairsText(s: Settings, timestampMs: nat)
    ensures forall e :: e in Pairs(s, timestampMs) ==> !e.value.PyInt?
  {
  }

  lemma PairsValues(s: Settings, timestampMs: nat)
    ensures "app_key" in ToMap(Pairs(s, timestampMs)) && ToMap(Pairs(s, timestampMs))["app_key"] == FromEnv(s.appKey)
    ensures "tracking_id" in ToMap(Pairs(s, timestampMs)) && ToMap(Pairs(s, timestampMs))["tracking_id"] == FromEnv(s.trackingId)
    ensures "sign_method" in ToMap(Pairs(s, timestampMs)) && ToMap(Pairs(s, timestampMs))["sign_method"] == PyStr("sha256")
    ensures "timestamp" in ToMap(Pairs(s, timestampMs)) && ToMap(Pairs(s, timestampMs))["timestamp"] == PyStr(Decimal.FromInt(timestampMs))
    ensures "method" in ToMap(Pairs(s, timestampMs)) && ToMap(Pairs(s, timestampMs))["method"] == PyStr(Method)
    ensures "page_size" in ToMap(Pairs(s, timestampMs)) && ToMap(Pairs(s, timestampMs))["page_size"] == PyStr("1")
  {
    var r := Pairs(s, timestampMs);
    PairsDistinct(s, timestampMs);
    ToMapMembership(r, r[1]);
    ToMapMembership(r, r[10]);
    ToMapMembership(r, r[0]);
    ToMapMembership(r, r[3]);
    ToMapMembership(r, r[4]);
    ToMapMembership(r, r[6]);
  }

  /**
   The parameters of `fetch_product` before signing. Every value is text: the
   millisecond timestamp is converted with `str` before it goes in.
   */
  function RequestParams(s: Settings, timestampMs: nat): (r: Params)
    ensures DistinctKeys(r)
    ensures SignKey !in Keys(r)
    ensures forall e :: e in r ==> !e.value.PyInt?
    ensures "app_key" in ToMap(r) && ToMap(r)["app_key"] == FromEnv(s.appKey)
    ensures "tracking_id" in ToMap(r) && ToMap(r)["tracking_id"] == FromEnv(s.trackingId)
    ensures "sign_method" in ToMap(r) && ToMap(r)["sign_method"] == PyStr("sha256")
    ensures "timestamp" in ToMap(r) && Decimal.ToInt(Str(ToMap(r)["timestamp"])) == Some(timestampMs as int)
    ensures Keys(r) == {"app_key", "method", "format", "sign_method", "timestamp", "v", "tracking_id", "fields", "target_currency", "target_language", "page_size"}
    ensures "method" in ToMap(r) && ToMap(r)["method"] == PyStr(Method)
    ensures "page_size" in ToMap(r) && ToMap(r)["page_size"] == PyStr("1")
  {
    PairsDistinct(s, timestampMs);
    PairsKeys(s, timestampMs);
    PairsText(s, timestampMs);
    PairsValues(s, timestampMs);
    Decimal.FromIntRoundTrip(timestampMs);
    Pairs(s, timestampMs)
  }

  /**
   The request as sent: the unsigned pairs in their order, then `sign`. With the
   secret set, the API's check accepts it under that secret; unset, the request
   is signed as if the secret were the text `None`.
   */
  function SignedParams(s: Settings, timestampMs: nat, sha256: seq<byte> -> Digest): (r: Params)
    ensures DistinctKeys(r)
    ensures |r| == |RequestParams(s, timestampMs)| + 1
    ensures r[..|r| - 1] == RequestParams(s, timestampMs)
    ensures r[|r| - 1].key == SignKey
    ensures s.appSecret.Some? ==> Verifies(r, s.appSecret.value, sha256)
    ensures s.appSecret.None? ==> Verifies(r, "None", sha256)
  {
    SignRequest(RequestParams(s, timestampMs), s.appSecret, sha256)
  }

  /**
   `fetch_product`: the request, the response and its decoding all sit in the
   `try`, so whatever goes wrong the result is `None`; otherwise it is the first
   product of the response. `server` is the API's answer to a request.
   */
  function FetchProduct(s: Settings, timestampMs: nat, sha256: seq<byte> -> Digest, server: Params -> HttpOutcome): (r: Option<Product>)
    ensures var o := server(SignedParams(s, timestampMs, sha256));
      && (r.Some? <==> o.Received? && o.body.Some? && HasProduct(o.body.value))
      && (r.Some? ==> r == ExtractProduct(o.body.value))
  {
    FetchGuarded(server(SignedParams(s, timestampMs, sha256)))
  }

  /**
   The announcement of a product: the Markdown message, sent as the caption of
   the product image when the image url is truthy and as plain text otherwise.
   The message gives back the title, price and url it shows.
   */
  function Announce(product: Product, s: Settings): (r: Post)
    requires Printable(product)
    ensures Truthy(product.image) <==> r.payload.PhotoPayload?
    ensures r.url == Endpoint(s.telegramToken, if Truthy(product.image) then "sendPhoto" else "sendMessage")
    ensures r.payload.PhotoPayload? ==> r.payload.photo == product.image
    ensures r.payload.chatId == s.telegramChannel
    ensures r.payload.parseMode == "Markdown"
    ensures MessageOf(r.payload) == MarkdownMessage(Display(product.title), Display(product.price), Display(product.url))
    ensures '*' !in Display(product.title) && '\n' !in Display(product.price) ==>
      ParseMarkdownMessage(MessageOf(r.payload))
        == Some((Display(product.title), Display(product.price), Display(product.url)))
  {
    var message := MarkdownMessage(Display(product.title), Display(product.price), Display(product.url));
    MarkdownMessageRoundTrip(Display(product.title), Display(product.price), Display(product.url));
    BotPost(message, product.image, s.telegramToken, s.telegramChannel)
  }

  /**
   `run`: a post is made exactly when a product was fetched, and it is that
   product's announcement.
   */
  function Run(s: Settings, timestampMs: nat, sha256: seq<byte> -> Digest, server: Params -> HttpOutcome): (r: Option<Post>)
    requires FetchProduct(s, timestampMs, sha256, server).Some? ==>
      Printable(FetchProduct(s, timestampMs, sha256, server).value)
    ensures r.Some? <==> FetchProduct(s, timestampMs, sha256, server).Some?
    ensures r.Some? ==> r.value == Announce(FetchProduct(s, timestampMs, sha256, server).value, s)
  {
    match FetchProduct(s, timestampMs, sha256, server)
    case None => None
    case Some(product) => Some(Announce(product, s))
  }
}

=== FILE: aliexpress_bot_signed.dfy ===
/**
 aliexpress_bot_signed: every hour, ask the affiliate API for a product with a
 signed request and post it to a Telegram channel as a photo with an HTML
 caption.
 */
module AliexpressBotSigned {
  import opened Wrappers
  import opened Bytes
  import opened Values
  import opened Response
  import opened Telegram
  import opened Signer
  import Decimal

  const Method := "aliexpress.affiliate.product.query"
  const Fields := "product_title,product_main_image_url,product_detail_url,sale_price,discount"

  /** The `params` dict literal of `fetch_product`, in its written order. */
  function Pairs(s: Settings, timestampMs: nat): Params {
    [
      Entry("app_key", FromEnv(s.appKey)),
      Entry("method", PyStr(Method)),
      Entry("timestamp", PyInt(timestampMs)),
      Entry("sign_method", PyStr("sha256")),
      Entry("format", PyStr("json")),
      Entry("v", PyStr("2.0")),
      Entry("page_size", PyInt(1)),
      Entry("fields", PyStr(Fields)),
      Entry("target_currency", PyStr("USD")),
      Entry("target_language", PyStr("EN")),
      Entry("tracking_id", FromEnv(s.trackingId))
    ]
  }

  lemma PairsDistinct(s: Settings, timestampMs: nat)
    ensures DistinctKeys(Pairs(s, timestampMs))
    ensures SignKey !in Keys(Pairs(s, timestampMs))
  {
  }

  lemma PairsKeys(s: Settings, timestampMs: nat)
    ensures Keys(Pairs(s, timestampMs)) == {"app_key", "method", "timestamp", "sign_method", "format", "v", "page_size", "fields", "target_currency", "target_language", "tracking_id"}
  {
    var r := Pairs(s, timestampMs);
    forall i | 0 <= i < |r|
      ensures r[i].key in {"app_key", "method", "timestamp", "sign_method", "format", "v", "page_size", "fields", "target_currency", "target_language", "tracking_id"}
    {
    }
    assert r[0].key in Keys(r) && r[1].key in Keys(r) && r[2].key in Keys(r) && r[3].key in Keys(r) && r[4].key in Keys(r) && r[5].key in Keys(r) && r[6].key in Keys(r) && r[7].key in Keys(r) && r[8].key in Keys(r) && r[9].key in Keys(r) && r[10].key in Keys(r);
  }

  lemma PairsValues(s: Settings, timestampMs: nat)
    ensures "app_key" in ToMap(Pairs(s, timestampMs)) && ToMap(Pairs(s, timestampMs))["app_key"] == FromEnv(s.appKey)
    ensures "tracking_id" in ToMap(Pairs(s, timestampMs)) && ToMap(Pairs(s, timestampMs))["tracking_id"] == FromEnv(s.trackingId)
    ensures "sign_method" in ToMap(Pairs(s, timestampMs)) && ToMap(Pairs(s, timestampMs))["sign_method"] == PyStr("sha256")
    ensures "timestamp" in ToMap(Pairs(s, timestampMs)) && ToMap(Pairs(s, timestampMs))["timestamp"] == PyInt(timestampMs)
    ensures "method" in ToMap(Pairs(s, timestampMs)) && ToMap(Pairs(s, timestampMs))["method"] == PyStr(Method)
    ensures "page_size" in ToMap(Pairs(s, timestampMs)) && ToMap(Pairs(s, timestampMs))["page_size"] == PyInt(1)
  {
    var r := Pairs(s, timestampMs);
    PairsDistinct(s, timestampMs);
    ToMapMembership(r, r[1]);
    ToMapMembership(r, r[6]);
    ToMapMembership(r, r[0]);
    ToMapMembership(r, r[2]);
    ToMapMembership(r, r[3]);
    ToMapMembership(r, r[10]);
  }

  /**
   The parameters of `fetch_product` before signing. The timestamp and the page
   size are `int`s, and an `int` enters the signed text as its decimal digits.
   */
  function RequestParams(s: Settings, timestampMs: nat): (r: Params)
    ensures DistinctKeys(r)
    ensures SignKey !in Keys(r)
    ensures "app_key" in ToMap(r) && ToMap(r)["app_key"] == FromEnv(s.appKey)
    ensures "tracking_id" in ToMap(r) && ToMap(r)["tracking_id"] == FromEnv(s.trackingId)
    ensures "sign_method" in ToMap(r) && ToMap(r)["sign_method"] == PyStr("sha256")
    ensures "timestamp" in ToMap(r) && Decimal.ToInt(Str(ToMap(r)["timestamp"])) == Some(timestampMs as int)
    ensures Keys(r) == {"app_key", "method", "timestamp", "sign_method", "format", "v", "page_size", "fields", "target_currency", "target_language", "tracking_id"}
    ensures "method" in ToMap(r) && ToMap(r)["method"] == PyStr(Method)
    ensures "timestamp" in ToMap(r) && ToMap(r)["timestamp"] == PyInt(timestampMs)
    ensures "page_size" in ToMap(r) && ToMap(r)["page_size"] == PyInt(1)
  {
    PairsDistinct(s, timestampMs);
    PairsKeys(s, timestampMs);
    PairsValues(s, timestampMs);
    Pairs(s, timestampMs)
  }

  /**
   The signature of these parameters is the one of the same dict with every
   `int` already turned into its text, which is how the values travel in the
   query string.
   */
  lemma IntsSignAsSent(s: Settings, timestampMs: nat, sha256: seq<byte> -> Digest)
    ensures GenerateSignatureStrict(StringifyInts(RequestParams(s, timestampMs)), s.appSecret, sha256)
         == GenerateSignatureStrict(RequestParams(s, timestampMs), s.appSecret, sha256)
  {
    IntsSignAsDecimal(RequestParams(s, timestampMs), s.appSecret, sha256);
  }

  /**
   Signing the request before it is sent: an unset secret makes the signing raise
   `TypeError`; a set one yields the unsigned pairs in order followed by
   `sign`, which the API's check accepts under that secret.
   */
  function SignedParams(s: Settings, timestampMs: nat, sha256: seq<byte> -> Digest): (r: Result<Params, Crash>)
    ensures r.Err? <==> s.appSecret.None?
    ensures r.Err? ==> r.error == TypeError
    ensures r.Ok? ==>
      && DistinctKeys(r.value)
      && |r.value| == |RequestParams(s, timestampMs)| + 1
      && r.value[..|r.value| - 1] == RequestParams(s, timestampMs)
      && r.value[|r.value| - 1].key == SignKey
      && Verifies(r.value, s.appSecret.value, sha256)
  {
    SignRequestStrict(RequestParams(s, timestampMs), s.appSecret, sha256)
  }

  /**
   `fetch_product`. The signing and the `requests.get` both happen before the
   `try`, so their exceptions escape; what follows them is caught and ends as
   `None`. `server` is the API's answer to a request.
   */
  function FetchProduct(s: Settings, timestampMs: nat, sha256: seq<byte> -> Digest, server: Params -> HttpOutcome): (r: Result<Option<Product>, Crash>)
    ensures r == Err(TypeError) <==> s.appSecret.None?
    ensures r == Err(ConnectionError) <==>
      SignedParams(s, timestampMs, sha256).Ok? && server(SignedParams(s, timestampMs, sha256).value).TransportFailure?
    ensures r.Ok? ==>
      && SignedParams(s, timestampMs, sha256).Ok?
      && r.value == FetchGuarded(server(SignedParams(s, timestampMs, sha256).value))
  {
    var request :- SignedParams(s, timestampMs, sha256);
    FetchUnguarded(server(request))
  }

  /** One pass of `main`'s loop: fetch, then send the product if there is one. */
  function LoopIteration(s: Settings, timestampMs: nat, sha256: seq<byte> -> Digest, server: Params -> HttpOutcome): (r: Result<Option<Post>, Crash>)
    requires var f := FetchProduct(s, timestampMs, sha256, server);
      f.Ok? && f.value.Some? ==> Printable(f.value.value)
    ensures r.Err? <==> FetchProduct(s, timestampMs, sha256, server).Err?
    ensures r.Err? ==> r.error == FetchProduct(s, timestampMs, sha256, server).error
    ensures r.Ok? ==> (r.value.Some? <==> FetchProduct(s, timestampMs, sha256, server).value.Some?)
    ensures r.Ok? && r.value.Some? ==>
      && r.value.value.url == Endpoint(s.telegramToken, "sendPhoto")
      && r.value.value.payload == PhotoPost(FetchProduct(s, timestampMs, sha256, server).value.value, s.telegramToken, s.telegramChannel).payload
  {
    SendIfFetched(FetchProduct(s, timestampMs, sha256, server), s.telegramToken, s.telegramChannel)
  }
}

=== FILE: decimal.dfy ===
/** Python's `str(n)` for integers, and the reading that undoes it. */
module Decimal {
  import opened Wrappers

  predicate IsDigit(c: char) {
    '0' <= c <= '9'
  }

  predicate AllDigits(s: string) {
    forall i :: 0 <= i < |s| ==> IsDigit(s[i])
  }

  /** A run of digits as `str` writes it: at least one digit, no leading zero unless it is `0` itself. */
  predicate Canonical(s: string) {
    1 <= |s| && AllDigits(s) && (1 < |s| ==> s[0] != '0')
  }

  function DigitChar(d: nat): (c: char)
    requires d < 10
    ensures IsDigit(c)
  {
    ('0' as int + d) as char
  }

  function DigitValue(c: char): (d: nat)
    requires IsDigit(c)
    ensures d < 10 && DigitChar(d) == c
  {
    c as int - '0' as int
  }

  /** The decimal digits of `n`, most significant first, without leading zeros. */
  function NatToString(n: nat): (r: string)
    ensures Canonical(r)
    ensures r[0] == '0' <==> n == 0
    decreases n
  {
    if n < 10 then [DigitChar(n)] else NatToString(n / 10) + [DigitChar(n % 10)]
  }

  /** `str(i)` for a Python `int`: a minus sign for negative values, then the digits. */
  function FromInt(i: int): string {
    if i < 0 then "-" + NatToString(-i) else NatToString(i)
  }

  /** The number a non-empty run of decimal digits denotes. */
  function DigitsValue(s: string): nat
    requires AllDigits(s)
    decreases |s|
  {
    if |s| == 0 then 0 else 10 * DigitsValue(s[..|s| - 1]) + DigitValue(s[|s| - 1])
  }

  /**
   Reads the text `str` gives an integer: canonical digits, optionally after a
   minus sign, where `-0` is not a form `str` produces.
   */
  function ToInt(s: string): Option<int> {
    if 1 < |s| && s[0] == '-' && Canonical(s[1..]) && s[1..] != "0" then Some(0 - DigitsValue(s[1..]) as int)
    else if Canonical(s) then Some(DigitsValue(s))
    else None
  }

  lemma {:induction false} NatRoundTrip(n: nat)
    ensures DigitsValue(NatToString(n)) == n
    decreases n
  {
    if n >= 10 {
      var s := NatToString(n);
      NatRoundTrip(n / 10);
      assert s[..|s| - 1] == NatToString(n / 10);
    }
  }

  /** Reading back the decimal form of any integer gives that integer. */
  lemma FromIntRoundTrip(i: int)
    ensures ToInt(FromInt(i)) == Some(i)
  {
    if i < 0 {
      NegativeRoundTrip(-i);
    } else {
      NatRoundTrip(i);
    }
  }

  lemma NegativeRoundTrip(n: nat)
    requires 0 < n
    ensures ToInt("-" + NatToString(n)) == Some(0 - n)
  {
    var digits := NatToString(n);
    var s := "-" + digits;
    NatRoundTrip(n);
    assert s[1..] == digits;
    assert digits != "0" by {
      assert digits[0] != '0';
    }
  }

  /** Different integers never share a decimal form. */
  lemma FromIntInjective(i: int, j: int)
    requires FromInt(i) == FromInt(j)
    ensures i == j
  {
    FromIntRoundTrip(i);
    FromIntRoundTrip(j);
  }

  /** Canonical digits are exactly the digits of the number they denote. */
  lemma {:induction false} DigitsRoundTrip(s: string)
    requires Canonical(s)
    ensures NatToString(DigitsValue(s)) == s
    decreases |s|
  {
    if |s| > 1 {
      var front := s[..|s| - 1];
      assert Canonical(front);
      DigitsRoundTrip(front);
      var v := DigitsValue(front);
      assert v != 0;
      var d := DigitValue(s[|s| - 1]);
      var n := 10 * v + d;
      assert n / 10 == v && n % 10 == d;
      assert s == front + [s[|s| - 1]];
    }
  }

  /**
   Only the text `str` produces reads back: whatever `ToInt` accepts is exactly
   the decimal form of the number it yields.
   */
  lemma ToIntCanonical(s: string)
    ensures ToInt(s).Some? ==> FromInt(ToInt(s).value) == s
  {
    if 1 < |s| && s[0] == '-' && Canonical(s[1..]) && s[1..] != "0" {
      DigitsRoundTrip(s[1..]);
      assert DigitsValue(s[1..]) != 0;
      assert s == "-" + s[1..];
    } else if Canonical(s) {
      DigitsRoundTrip(s);
    }
  }
}

=== FILE: hex.dfy ===
/** Octets, and the `hexdigest().upper()` rendering of a digest. */
module Bytes {
  type byte = x: int | 0 <= x < 256
}

module Hex {
  import opened Wrappers
  import opened Bytes

  /** One lower-case hexadecimal digit, as `hexdigest()` writes it. */
  function LowerNibble(n: nat): char
    requires n < 16
  {
    if n < 10 then ('0' as int + n) as char else ('a' as int + n - 10) as char
  }

  /** `hashlib`'s `hexdigest()`: two lower-case digits per byte, high nibble first. */
  function HexDigest(b: seq<byte>): (r: string)
    ensures |r| == 2 * |b|
  {
    if |b| == 0 then "" else [LowerNibble(b[0] / 16), LowerNibble(b[0] % 16)] + HexDigest(b[1..])
  }

  /** `str.upper()` on ASCII text: `a`..`z` become `A`..`Z`, every other character stays. */
  function UpperChar(c: char): char {
    if 'a' <= c <= 'z' then (c as int - 32) as char else c
  }

  function Upper(s: string): string {
    seq(|s|, i requires 0 <= i < |s| => UpperChar(s[i]))
  }

  predicate IsUpperHexDigit(c: char) {
    '0' <= c <= '9' || 'A' <= c <= 'F'
  }

  function NibbleValue(c: char): (n: nat)
    requires IsUpperHexDigit(c)
    ensures n < 16
  {
    if c <= '9' then c as int - '0' as int else c as int - 'A' as int + 10
  }

  /** Reads pairs of upper-case hexadecimal digits back into bytes. */
  function ParseUpperHex(s: string): Option<seq<byte>>
    decreases |s|
  {
    if |s| == 0 then Some([])
    else if |s| == 1 || !IsUpperHexDigit(s[0]) || !IsUpperHexDigit(s[1]) then None
    else
      match ParseUpperHex(s[2..])
      case None => None
      case Some(rest) => Some([16 * NibbleValue(s[0]) + NibbleValue(s[1])] + rest)
  }

  lemma UpperNibble(n: nat)
    requires n < 16
    ensures IsUpperHexDigit(UpperChar(LowerNibble(n)))
    ensures NibbleValue(UpperChar(LowerNibble(n))) == n
  {
  }

  lemma UpperAppend(a: string, b: string)
    ensures Upper(a + b) == Upper(a) + Upper(b)
  {
  }

  /**
   The upper-cased hex digest of `b` has two characters per byte, all of them
   in `0-9A-F`, and reads back as `b`.
   */
  lemma {:induction false} UpperHexRoundTrip(b: seq<byte>)
    ensures |Upper(HexDigest(b))| == 2 * |b|
    ensures forall i :: 0 <= i < 2 * |b| ==> IsUpperHexDigit(Upper(HexDigest(b))[i])
    ensures ParseUpperHex(Upper(HexDigest(b))) == Some(b)
    decreases |b|
  {
    if |b| > 0 {
      var head := [LowerNibble(b[0] / 16), LowerNibble(b[0] % 16)];
      UpperRoundTripStep(b, head);
    }
  }

  lemma {:induction false} UpperRoundTripStep(b: seq<byte>, head: string)
    requires |b| > 0 && head == [LowerNibble(b[0] / 16), LowerNibble(b[0] % 16)]
    ensures forall i :: 0 <= i < 2 * |b| ==> IsUpperHexDigit(Upper(HexDigest(b))[i])
    ensures ParseUpperHex(Upper(HexDigest(b))) == Some(b)
    decreases |b|, 0
  {
    UpperHexRoundTrip(b[1..]);
    UpperAppend(head, HexDigest(b[1..]));
    UpperNibble(b[0] / 16);
    UpperNibble(b[0] % 16);
    var h := Upper(HexDigest(b));
    assert h == Upper(head) + Upper(HexDigest(b[1..]));
    assert h[2..] == Upper(HexDigest(b[1..]));
    assert [b[0]] + b[1..] == b;
  }
}

module Utf8 {
  import opened Wrappers
  import opened Bytes

  /** The UTF-8 encoding of one Unicode scalar value: one to four bytes. */
  function EncodeChar(c: char): (r: seq<byte>)
    ensures 1 <= |r| <= 4
    ensures |r| == 1 <==> c as int < 0x80
    ensures |r| == 1 ==> r[0] == c as int
  {
    var n := c as int;
    if n < 0x80 then [n]
    else if n < 0x800 then [0xC0 + n / 64, 0x80 + n % 64]
    else if n < 0x10000 then [0xE0 + n / 4096, 0x80 + (n / 64) % 64, 0x80 + n % 64]
    else [0xF0 + n / 262144, 0x80 + (n / 4096) % 64, 0x80 + (n / 64) % 64, 0x80 + n % 64]
  }

  /** Python's `str.encode("utf-8")`. */
  function Encode(s: string): (r: seq<byte>)
    ensures |s| <= |r| <= 4 * |s|
  {
    if |s| == 0 then [] else EncodeChar(s[0]) + Encode(s[1..])
  }

  predicate IsContinuation(b: byte) {
    0x80 <= b < 0xC0
  }

  predicate IsScalar(n: int) {
    0 <= n < 0xD800 || 0xE000 <= n < 0x110000
  }

  /** The length of the sequence that a lead byte announces, or 0 for a byte that cannot lead. */
  function SequenceLength(b: byte): nat {
    if b < 0x80 then 1
    else if 0xC0 <= b < 0xE0 then 2
    else if 0xE0 <= b < 0xF0 then 3
    else if 0xF0 <= b < 0xF8 then 4
    else 0
  }

  /** The code point a well-formed sequence of the announced length denotes. */
  function CodePoint(b: seq<byte>): int
    requires 1 <= |b| <= 4
  {
    var b: seq<int> := b;
    if |b| == 1 then b[0]
    else if |b| == 2 then (b[0] - 0xC0) * 64 + (b[1] - 0x80)
    else if |b| == 3 then (b[0] - 0xE0) * 4096 + (b[1] - 0x80) * 64 + (b[2] - 0x80)
    else (b[0] - 0xF0) * 262144 + (b[1] - 0x80) * 4096 + (b[2] - 0x80) * 64 + (b[3] - 0x80)
  }

  /** The smallest code point that needs a sequence of length `len`. */
  function MinCodePoint(len: nat): int {
    if len <= 1 then 0 else if len == 2 then 0x80 else if len == 3 then 0x800 else 0x10000
  }

  /** Decodes strict UTF-8: no stray continuation bytes, no overlong forms, no surrogates. */
  function Decode(b: seq<byte>): Option<string>
    decreases |b|
  {
    if |b| == 0 then Some("")
    else
      var len := SequenceLength(b[0]);
      if len == 0 || |b| < len then None
      else if exists i :: 1 <= i < len && !IsContinuation(b[i]) then None
      else
        var n := CodePoint(b[..len]);
        if !IsScalar(n) || n < MinCodePoint(len) then None
        else
          match Decode(b[len..])
          case None => None
          case Some(rest) => Some([n as char] + rest)
  }

  lemma SplitDigits(n: nat)
    ensures n == (n / 64) * 64 + n % 64
    ensures n / 64 == (n / 4096) * 64 + (n / 64) % 64
    ensures n / 4096 == (n / 262144) * 64 + (n / 4096) % 64
  {
  }

  lemma DecodeStep(c: char, rest: seq<byte>)
    ensures var e := EncodeChar(c);
      && SequenceLength(e[0]) == |e|
      && (forall i :: 1 <= i < |e| ==> IsContinuation(e[i]))
      && CodePoint(e) == c as int
      && MinCodePoint(|e|) <= c as int
  {
    SplitDigits(c as int);
  }

  /** Decoding the UTF-8 encoding of any string gives that string back. */
  lemma {:induction false} EncodeRoundTrip(s: string)
    ensures Decode(Encode(s)) == Some(s)
    decreases |s|
  {
    if |s| > 0 {
      var e := EncodeChar(s[0]);
      var b := Encode(s);
      DecodeStep(s[0], Encode(s[1..]));
      EncodeRoundTrip(s[1..]);
      assert b[..|e|] == e;
      assert b[|e|..] == Encode(s[1..]);
      assert forall i :: 1 <= i < |e| ==> b[i] == e[i];
      assert [s[0]] + s[1..] == s;
    }
  }

  lemma {:induction false} EncodeAppend(a: string, b: string)
    ensures Encode(a + b) == Encode(a) + Encode(b)
    decreases |a|
  {
    if |a| > 0 {
      assert (a + b)[0] == a[0];
      assert (a + b)[1..] == a[1..] + b;
      assert Encode(a + b) == EncodeChar(a[0]) + Encode(a[1..] + b);
      EncodeAppend(a[1..], b);
      assert Encode(a) == EncodeChar(a[0]) + Encode(a[1..]);
    } else {
      assert a + b == b;
    }
  }
}

=== FILE: response.dfy ===
/** The decoded JSON body of the affiliate API, and Python's view of its values. */
module JsonValues {
  import opened Wrappers
  import Decimal

  /**
   A value produced by `response.json()`. Objects are Python `dict`s, so each
   key occurs once; numbers are integers.
   */
  datatype Json =
    | JNull
    | JBool(b: bool)
    | JInt(i: int)
    | JStr(s: string)
    | JArray(items: seq<Json>)
    | JObject(members: map<string, Json>)

  /** Python's truth value: `None`, `False`, `0` and empty containers are false. */
  predicate Truthy(j: Json) {
    match j
    case JNull => false
    case JBool(b) => b
    case JInt(i) => i != 0
    case JStr(s) => |s| > 0
    case JArray(items) => |items| > 0
    case JObject(members) => |members| > 0
  }

  /** The values whose `str()` the model writes out: everything but lists and objects. */
  predicate Scalar(j: Json) {
    !j.JArray? && !j.JObject?
  }

  /** Python's `str(j)`, which an f-string inserts, for a scalar value. */
  function Display(j: Json): (r: string)
    requires Scalar(j)
    ensures j.JNull? ==> r == "None"
    ensures j.JBool? ==> r == (if j.b then "True" else "False")
    ensures j.JStr? ==> r == j.s
    ensures j.JInt? ==> Decimal.ToInt(r) == Some(j.i)
  {
    match j
    case JNull => "None"
    case JBool(b) => if b then "True" else "False"
    case JInt(i) => Decimal.FromIntRoundTrip(i); Decimal.FromInt(i)
    case JStr(s) => s
  }
}

/**
 `fetch_product`'s reading of the response: `data["resp_result"]["result"]["products"][0]`
 and four fields of that product, with every `KeyError`, `IndexError` and
 `TypeError` on the way turned into `None`.
 */
module Response {
  import opened Wrappers
  import opened JsonValues
  import opened Values

  /** The record `fetch_product` returns, each field copied as it came. */
  datatype Product = Product(title: Json, image: Json, price: Json, url: Json)

  /** What the HTTP exchange gave: a transport exception, or a body that may or may not parse as JSON. */
  datatype HttpOutcome = TransportFailure | Received(body: Option<Json>)

  const TitleKey := "product_title"
  const ImageKey := "product_main_image_url"
  const PriceKey := "sale_price"
  const UrlKey := "product_detail_url"

  /** `j[k]` with a string key: only a `dict` holding `k` answers; anything else raises. */
  function Get(j: Json, k: string): (r: Option<Json>)
    ensures r.Some? <==> j.JObject? && k in j.members
    ensures r.Some? ==> r.value == j.members[k]
  {
    if j.JObject? && k in j.members then Some(j.members[k]) else None
  }

  /**
   `j[0]`: the first item of a non-empty list, the first character of a
   non-empty string; an empty sequence raises `IndexError`, a `dict` has no
   key `0`, and the other values cannot be indexed.
   */
  function First(j: Json): Option<Json> {
    match j
    case JArray(items) => if |items| > 0 then Some(items[0]) else None
    case JStr(s) => if |s| > 0 then Some(JStr([s[0]])) else None
    case _ => None
  }

  /** The response has a non-empty product list whose first entry carries all four fields. */
  ghost predicate HasProduct(data: Json) {
    && data.JObject? && "resp_result" in data.members
    && var resp := data.members["resp_result"];
    && resp.JObject? && "result" in resp.members
    && var result := resp.members["result"];
    && result.JObject? && "products" in result.members
    && var products := result.members["products"];
    && products.JArray? && |products.items| > 0
    && var first := products.items[0];
    && first.JObject?
    && TitleKey in first.members && ImageKey in first.members
    && PriceKey in first.members && UrlKey in first.members
  }

  /** The fields of the first product of a response that has one. */
  ghost function FirstProduct(data: Json): map<string, Json>
    requires HasProduct(data)
  {
    data.members["resp_result"].members["result"].members["products"].items[0].members
  }

  /**
   The product of a decoded response: present exactly when the whole path
   exists and the list is non-empty, and then a verbatim copy of the four
   fields of the first entry.
   */
  function ExtractProduct(data: Json): (r: Option<Product>)
    ensures r.Some? <==> HasProduct(data)
    ensures r.Some? ==>
      var fields := FirstProduct(data);
      r.value == Product(fields[TitleKey], fields[ImageKey], fields[PriceKey], fields[UrlKey])
  {
    var resp :- Get(data, "resp_result");
    var result :- Get(resp, "result");
    var products :- Get(result, "products");
    var first :- First(products);
    var title :- Get(first, TitleKey);
    var image :- Get(first, ImageKey);
    var price :- Get(first, PriceKey);
    var url :- Get(first, UrlKey);
    Some(Product(title, image, price, url))
  }

  /**
   aliexpress_bot's `fetch_product`: the request and the decoding both sit in
   the `try`, so every failure, transport included, ends as `None`.
   */
  function FetchGuarded(o: HttpOutcome): (r: Option<Product>)
    ensures r.Some? <==> o.Received? && o.body.Some? && HasProduct(o.body.value)
    ensures r.Some? ==> r == ExtractProduct(o.body.value)
  {
    match o
    case TransportFailure => None
    case Received(None) => None
    case Received(Some(data)) => ExtractProduct(data)
  }

  /**
   The `fetch_product` of aliexpress_bot_signed and simple-telegram-bot: the
   request is made before the `try`, so a transport exception escapes; what
   happens after it is caught as in aliexpress_bot.
   */
  function FetchUnguarded(o: HttpOutcome): (r: Result<Option<Product>, Crash>)
    ensures r.Err? <==> o.TransportFailure?
    ensures r.Err? ==> r.error == ConnectionError
    ensures r.Ok? ==> r.value == FetchGuarded(o)
  {
    match o
    case TransportFailure => Err(ConnectionError)
    case Received(None) => Ok(None)
    case Received(Some(data)) => Ok(ExtractProduct(data))
  }

  /** A response whose product list is empty yields no product. */
  lemma EmptyListNoProduct(resp: map<string, Json>, result: map<string, Json>, data: Json)
    requires "products" in result && result["products"] == JArray([])
    requires "result" in resp && resp["result"] == JObject(result)
    requires data == JObject(map["resp_result" := JObject(resp)])
    ensures FetchGuarded(Received(Some(data))) == None
    ensures FetchUnguarded(Received(Some(data))) == Ok(None)
  {
  }
}

=== FILE: signer.dfy ===
/**
 The request signature of the affiliate API: sort the parameters by key, write
 each key immediately followed by its value, wrap the result in the app secret
 on both sides, hash the UTF-8 bytes with SHA-256 and render the digest as
 upper-case hexadecimal. SHA-256 itself is a parameter: any function from
 bytes to a 32-byte digest.
 */
module Signer {
  import opened Wrappers
  import opened Bytes
  import opened Values
  import opened Sorting
  import Hex
  import Utf8
  import Decimal

  /** A SHA-256 digest: 32 bytes. */
  type Digest = b: seq<byte> | |b| == 32 witness seq(32, i => 0)

  /** The name under which the signature travels. */
  const SignKey := "sign"

  /** `f"{k}{v}"` for one pair: the key, then the value's text, no delimiter. */
  function Piece(e: Entry): string {
    e.key + Str(e.value)
  }

  /** `''.join(f"{k}{v}" for k, v in pairs)`. */
  function Concat(s: seq<Entry>): string
    decreases |s|
  {
    if |s| == 0 then "" else Piece(s[0]) + Concat(s[1..])
  }

  /** The pairs written out in ascending key order. */
  function QueryString(p: Params): string {
    Concat(SortByKey(p))
  }

  /** The text that is hashed: the secret, the sorted pairs, the secret again. */
  function BaseString(p: Params, secret: string): string {
    secret + QueryString(p) + secret
  }

  /** The number of characters the pairs contribute, in whatever order they come. */
  function TotalLength(s: seq<Entry>): nat
    decreases |s|
  {
    if |s| == 0 then 0 else |s[0].key| + |Str(s[0].value)| + TotalLength(s[1..])
  }

  /** `hexdigest().upper()`: 64 characters from `0-9A-F` that read back as the digest. */
  function HexUpper(d: Digest): (r: string)
    ensures |r| == 64
    ensures forall i :: 0 <= i < |r| ==> Hex.IsUpperHexDigit(r[i])
    ensures Hex.ParseUpperHex(r) == Some(d)
  {
    Hex.UpperHexRoundTrip(d);
    Hex.Upper(Hex.HexDigest(d))
  }

  /**
   `generate_signature` of aliexpress_bot. The secret is inserted by an f-string,
   so an unset secret signs as the text `None`.
   */
  function GenerateSignature(p: Params, secret: EnvVar, sha256: seq<byte> -> Digest): (r: string)
    ensures |r| == 64
    ensures forall i :: 0 <= i < |r| ==> Hex.IsUpperHexDigit(r[i])
    ensures Hex.ParseUpperHex(r) == Some(sha256(Utf8.Encode(BaseString(p, Str(FromEnv(secret))))))
  {
    HexUpper(sha256(Utf8.Encode(BaseString(p, Str(FromEnv(secret))))))
  }

  /**
   `generate_signature` of aliexpress_bot_signed. The secret is joined with `+`,
   which raises `TypeError` when it is unset; otherwise it agrees with aliexpress_bot.
   */
  function GenerateSignatureStrict(p: Params, secret: EnvVar, sha256: seq<byte> -> Digest): (r: Result<string, Crash>)
    ensures r.Err? <==> secret.None?
    ensures r.Err? ==> r.error == TypeError
    ensures r.Ok? ==> r.value == GenerateSignature(p, secret, sha256)
  {
    match secret
    case None => Err(TypeError)
    case Some(s) => Ok(HexUpper(sha256(Utf8.Encode(s + QueryString(p) + s))))
  }

  /**
   `params["sign"] = signature`: the signature is computed over the unsigned
   parameters and stored under the one new key `sign`.
   */
  function AttachSignature(p: Params, signature: string): (r: Params)
    requires DistinctKeys(p)
    ensures DistinctKeys(r)
    ensures ToMap(r) == ToMap(p)[SignKey := PyStr(signature)]
    ensures Keys(r) == Keys(p) + {SignKey}
    ensures SignKey !in Keys(p) ==> r == p + [Entry(SignKey, PyStr(signature))]
  {
    SetItemSpec(p, SignKey, PyStr(signature));
    SetItem(p, SignKey, PyStr(signature))
  }

  /** `str(v)` applied ahead of time to every `int` value; other values stay as they are. */
  function StringifyInts(s: seq<Entry>): (r: seq<Entry>)
    decreases |s|
  {
    if |s| == 0 then [] else [StringifyEntry(s[0])] + StringifyInts(s[1..])
  }

  function StringifyEntry(e: Entry): Entry {
    match e.value
    case PyInt(i) => Entry(e.key, PyStr(Decimal.FromInt(i)))
    case _ => e
  }

  // ---------------------------------------------------------------------------
  // Layout of the signed text

  lemma {:induction false} ConcatAppend(a: seq<Entry>, b: seq<Entry>)
    ensures Concat(a + b) == Concat(a) + Concat(b)
    decreases |a|
  {
    if |a| == 0 {
      assert a + b == b;
    } else {
      assert (a + b)[0] == a[0];
      assert (a + b)[1..] == a[1..] + b;
      ConcatAppend(a[1..], b);
    }
  }

  lemma {:induction false} ConcatLength(s: seq<Entry>)
    ensures |Concat(s)| == TotalLength(s)
    decreases |s|
  {
    if |s| > 0 {
      ConcatLength(s[1..]);
    }
  }

  lemma {:induction false} InsertLength(e: Entry, s: seq<Entry>)
    ensures TotalLength(Insert(e, s)) == |e.key| + |Str(e.value)| + TotalLength(s)
    decreases |s|
  {
    if |s| > 0 && !Strings.Less(e.key, s[0].key) {
      InsertLength(e, s[1..]);
      assert ([s[0]] + Insert(e, s[1..]))[1..] == Insert(e, s[1..]);
    }
  }

  lemma {:induction false} SortLength(p: Params)
    ensures TotalLength(SortByKey(p)) == TotalLength(p)
    decreases |p|
  {
    if |p| > 0 {
      SortLength(p[1..]);
      InsertLength(p[0], SortByKey(p[1..]));
    }
  }

  /**
   The hashed text starts and ends with the secret, and its length is twice the
   secret's plus the length of every key and value.
   */
  lemma BaseStringFrame(p: Params, secret: string)
    ensures |BaseString(p, secret)| == 2 * |secret| + TotalLength(p)
    ensures BaseString(p, secret)[..|secret|] == secret
    ensures BaseString(p, secret)[|BaseString(p, secret)| - |secret|..] == secret
  {
    ConcatLength(SortByKey(p));
    SortLength(p);
  }

  /**
   The sorted pairs are strictly ascending by key and are exactly the pairs of
   the `dict`; in the text, each key is followed at once by its value and the
   pieces come in that order with nothing between them.
   */
  lemma QueryStringLayout(p: Params)
    requires DistinctKeys(p)
    ensures StrictlySorted(SortByKey(p))
    ensures forall e :: e in SortByKey(p) <==> e in p
    ensures |SortByKey(p)| == |p|
    ensures forall i :: 0 <= i < |SortByKey(p)| ==>
      QueryString(p) == Concat(SortByKey(p)[..i]) + Piece(SortByKey(p)[i]) + Concat(SortByKey(p)[i + 1..])
  {
    var s := SortByKey(p);
    SortStrictlySorted(p);
    SortPermutes(p);
    forall e
      ensures e in s <==> e in p
    {
      assert e in s <==> e in multiset(p);
    }
    assert |s| == |multiset(s)| == |multiset(p)| == |p|;
    forall i | 0 <= i < |s|
      ensures QueryString(p) == Concat(s[..i]) + Piece(s[i]) + Concat(s[i + 1..])
    {
      ConcatSplitAt(s, i);
    }
  }

  lemma ConcatSplitAt(s: seq<Entry>, i: nat)
    requires i < |s|
    ensures Concat(s) == Concat(s[..i]) + Piece(s[i]) + Concat(s[i + 1..])
  {
    var front, back := s[..i], s[i..];
    assert s == front + back;
    ConcatAppend(front, back);
    assert back[0] == s[i] && back[1..] == s[i + 1..];
    assert Concat(back) == Piece(s[i]) + Concat(s[i + 1..]);
  }

  /**
   The query string is the concatenation of the `dict`'s pairs in the one
   strictly ascending key order, whichever procedure produces that order.
   */
  lemma QueryStringCharacterised(p: Params, q: seq<Entry>)
    requires DistinctKeys(p) && StrictlySorted(q)
    requires forall e :: e in q <==> e in p
    ensures QueryString(p) == Concat(q)
  {
    SortByKeyCharacterised(p, q);
  }

  // ---------------------------------------------------------------------------
  // What the signature depends on

  /** Reordering the pairs of a `dict` does not change its signature. */
  lemma SignaturePermutationInvariant(p: Params, q: Params, secret: EnvVar, sha256: seq<byte> -> Digest)
    requires DistinctKeys(p) && DistinctKeys(q)
    requires multiset(p) == multiset(q)
    ensures BaseString(p, Str(FromEnv(secret))) == BaseString(q, Str(FromEnv(secret)))
    ensures GenerateSignature(p, secret, sha256) == GenerateSignature(q, secret, sha256)
    ensures GenerateSignatureStrict(p, secret, sha256) == GenerateSignatureStrict(q, secret, sha256)
  {
    SortStrictlySorted(q);
    SortPermutes(q);
    forall e
      ensures e in SortByKey(q) <==> e in p
    {
      assert e in SortByKey(q) <==> e in multiset(q);
      assert e in p <==> e in multiset(p);
    }
    SortByKeyCharacterised(p, SortByKey(q));
  }

  /** The concatenated pairs depend only on the mapping, never on the order of insertion. */
  lemma MappingDeterminesQueryString(p: Params, q: Params)
    requires DistinctKeys(p) && DistinctKeys(q)
    requires ToMap(p) == ToMap(q)
    ensures QueryString(p) == QueryString(q)
  {
    SameMapSamePairs(p, q);
    SortStrictlySorted(q);
    SortPermutes(q);
    forall e
      ensures e in SortByKey(q) <==> e in p
    {
      assert e in SortByKey(q) <==> e in multiset(q);
    }
    SortByKeyCharacterised(p, SortByKey(q));
  }

  /** The signature depends only on the mapping, never on the order of insertion. */
  lemma SignatureDependsOnlyOnMapping(p: Params, q: Params, secret: EnvVar, sha256: seq<byte> -> Digest)
    requires DistinctKeys(p) && DistinctKeys(q)
    requires ToMap(p) == ToMap(q)
    ensures GenerateSignature(p, secret, sha256) == GenerateSignature(q, secret, sha256)
    ensures GenerateSignatureStrict(p, secret, sha256) == GenerateSignatureStrict(q, secret, sha256)
  {
    MappingDeterminesQueryString(p, q);
  }

  lemma {:induction false} InsertStringified(e: Entry, s: seq<Entry>)
    ensures Insert(StringifyEntry(e), StringifyInts(s)) == StringifyInts(Insert(e, s))
    decreases |s|
  {
    if |s| > 0 {
      var t := StringifyInts(s);
      assert t[0] == StringifyEntry(s[0]) && t[1..] == StringifyInts(s[1..]);
      if !Strings.Less(e.key, s[0].key) {
        InsertStringified(e, s[1..]);
      }
    }
  }

  lemma {:induction false} SortStringified(p: Params)
    ensures SortByKey(StringifyInts(p)) == StringifyInts(SortByKey(p))
    decreases |p|
  {
    if |p| > 0 {
      var t := StringifyInts(p);
      assert t[0] == StringifyEntry(p[0]) && t[1..] == StringifyInts(p[1..]);
      SortStringified(p[1..]);
      InsertStringified(p[0], SortByKey(p[1..]));
    }
  }

  lemma {:induction false} ConcatStringified(s: seq<Entry>)
    ensures Concat(StringifyInts(s)) == Concat(s)
    decreases |s|
  {
    if |s| > 0 {
      var t := StringifyInts(s);
      assert t[0] == StringifyEntry(s[0]) && t[1..] == StringifyInts(s[1..]);
      ConcatStringified(s[1..]);
    }
  }

  /**
   An `int` value signs as its decimal text: replacing every `int` by `str` of it
   changes neither the hashed text nor the signature.
   */
  lemma IntsSignAsDecimal(p: Params, secret: EnvVar, sha256: seq<byte> -> Digest)
    ensures forall s :: BaseString(StringifyInts(p), s) == BaseString(p, s)
    ensures GenerateSignature(StringifyInts(p), secret, sha256) == GenerateSignature(p, secret, sha256)
    ensures GenerateSignatureStrict(StringifyInts(p), secret, sha256) == GenerateSignatureStrict(p, secret, sha256)
  {
    SortStringified(p);
    ConcatStringified(SortByKey(p));
  }

  /** The worked example: `{"a": "1", "b": "2"}` with secret `X`, inserted in either order. */
  lemma WorkedExample()
    ensures BaseString([Entry("a", PyStr("1")), Entry("b", PyStr("2"))], "X") == "Xa1b2X"
    ensures BaseString([Entry("b", PyStr("2")), Entry("a", PyStr("1"))], "X") == "Xa1b2X"
  {
    var ea := Entry("a", PyStr("1"));
    var eb := Entry("b", PyStr("2"));
    assert Strings.Less("a", "b");
    assert !Strings.Less("b", "a");
    assert SortByKey([ea, eb]) == [ea, eb] by {
      assert [ea, eb][1..] == [eb];
      assert SortByKey([eb]) == [eb] by { assert [eb][1..] == []; }
    }
    assert SortByKey([eb, ea]) == [ea, eb] by {
      assert [eb, ea][1..] == [ea];
      assert SortByKey([ea]) == [ea] by { assert [ea][1..] == []; }
      assert [ea][1..] == [];
      assert Insert(eb, [ea]) == [ea] + Insert(eb, []);
    }
    assert Concat([ea, eb]) == "a1b2" by {
      assert [ea, eb][1..] == [eb];
      assert [eb][1..] == [];
      assert Piece(ea) == "a1" && Piece(eb) == "b2";
      assert Concat([eb]) == "b2";
    }
  }

  // ---------------------------------------------------------------------------
  // The receiving side

  /** The parameters with every pair under key `k` dropped. */
  function Without(p: Params, k: string): (r: Params)
    ensures k !in Keys(r)
    ensures forall e :: e in r <==> e in p && e.key != k
    decreases |p|
  {
    if |p| == 0 then []
    else
      var rest := Without(p[1..], k);
      assert forall e :: e in p <==> e == p[0] || e in p[1..];
      if p[0].key == k then rest
      else
        KeysOfTail([p[0]] + rest);
        assert ([p[0]] + rest)[1..] == rest;
        [p[0]] + rest
  }

  /**
   The check the API applies to a signed request: take the `sign` pair out,
   sign what is left with the shared secret, and compare the digest that the
   received text spells with the one recomputed.
   */
  predicate Verifies(p: Params, secret: string, sha256: seq<byte> -> Digest) {
    && SignKey in ToMap(p)
    && ToMap(p)[SignKey].PyStr?
    && Hex.ParseUpperHex(ToMap(p)[SignKey].s)
       == Some(sha256(Utf8.Encode(BaseString(Without(p, SignKey), secret))))
  }

  lemma {:induction false} WithoutAppended(p: Params, e: Entry)
    requires e.key !in Keys(p)
    ensures Without(p + [e], e.key) == p
    decreases |p|
  {
    if |p| == 0 {
      assert [e][1..] == [];
    } else {
      KeysOfTail(p);
      assert (p + [e])[1..] == p[1..] + [e];
      WithoutAppended(p[1..], e);
      assert p == [p[0]] + p[1..];
    }
  }

  /**
   A request signed with the secret the API holds passes the API's check:
   signing then attaching `sign` is undone exactly by dropping `sign`.
   */
  lemma SignedRequestVerifies(p: Params, secret: string, sha256: seq<byte> -> Digest)
    requires DistinctKeys(p) && SignKey !in Keys(p)
    ensures Without(AttachSignature(p, GenerateSignature(p, Some(secret), sha256)), SignKey) == p
    ensures Verifies(AttachSignature(p, GenerateSignature(p, Some(secret), sha256)), secret, sha256)
  {
    var signature := GenerateSignature(p, Some(secret), sha256);
    WithoutAppended(p, Entry(SignKey, PyStr(signature)));
  }

  /** A request signed with a different secret's text fails the check whenever SHA-256 tells the two texts apart. */
  lemma WrongSecretRejected(p: Params, used: string, held: string, sha256: seq<byte> -> Digest)
    requires DistinctKeys(p) && SignKey !in Keys(p)
    requires sha256(Utf8.Encode(BaseString(p, used))) != sha256(Utf8.Encode(BaseString(p, held)))
    ensures !Verifies(AttachSignature(p, GenerateSignature(p, Some(used), sha256)), held, sha256)
  {
    var signature := GenerateSignature(p, Some(used), sha256);
    WithoutAppended(p, Entry(SignKey, PyStr(signature)));
  }

  /**
   `params["sign"] = generate_signature(params, secret)` on parameters without a
   `sign` key: the pairs stay in order with `sign` after them, and the API's
   check accepts the result under the secret's text.
   */
  function SignRequest(p: Params, secret: EnvVar, sha256: seq<byte> -> Digest): (r: Params)
    requires DistinctKeys(p) && SignKey !in Keys(p)
    ensures DistinctKeys(r)
    ensures |r| == |p| + 1
    ensures r[..|p|] == p
    ensures r[|p|].key == SignKey
    ensures ToMap(r) == ToMap(p)[SignKey := PyStr(GenerateSignature(p, secret, sha256))]
    ensures Verifies(r, Str(FromEnv(secret)), sha256)
  {
    var signature := GenerateSignature(p, secret, sha256);
    SignedRequestVerifies(p, Str(FromEnv(secret)), sha256);
    assert GenerateSignature(p, Some(Str(FromEnv(secret))), sha256) == signature;
    var r := AttachSignature(p, signature);
    assert r[..|p|] == p;
    r
  }

  /**
   The same step with aliexpress_bot_signed's `generate_signature`: an unset
   secret raises `TypeError` before anything is attached.
   */
  function SignRequestStrict(p: Params, secret: EnvVar, sha256: seq<byte> -> Digest): (r: Result<Params, Crash>)
    requires DistinctKeys(p) && SignKey !in Keys(p)
    ensures r.Err? <==> secret.None?
    ensures r.Err? ==> r.error == TypeError
    ensures r.Ok? ==>
      && DistinctKeys(r.value)
      && |r.value| == |p| + 1
      && r.value[..|p|] == p
      && r.value[|p|].key == SignKey
      && Verifies(r.value, secret.value, sha256)
  {
    var signature :- GenerateSignatureStrict(p, secret, sha256);
    SignedRequestVerifies(p, secret.value, sha256);
    var r := AttachSignature(p, signature);
    assert r[..|p|] == p;
    Ok(r)
  }
}

=== FILE: simple_telegram_bot.dfy ===
/**
 simple-telegram-bot: every hour, ask the affiliate API for a product and post
 it to a Telegram channel as a photo with an HTML caption. The request names
 `sha256` as its signing method but carries no signature.
 */
module SimpleTelegramBot {
  import opened Wrappers
  import opened Values
  import opened Response
  import opened Telegram
  import opened Signer
  import Decimal

  const Method := "aliexpress.affiliate.product.query"
  const Fields := "product_title,product_main_image_url,product_detail_url,sale_price,discount"

  /** The `params` dict literal of `fetch_product`, in its written order. */
  function Pairs(s: Settings, timestampMs: nat): Params {
    [
      Entry("app_key", FromEnv(s.appKey)),
      Entry("method", PyStr(Method)),
      Entry("sign_method", PyStr("sha256")),
      Entry("timestamp", PyInt(timestampMs)),
      Entry("page_size", PyInt(1)),
      Entry("fields", PyStr(Fields)),
      Entry("target_currency", PyStr("USD")),
      Entry("target_language", PyStr("EN")),
      Entry("tracking_id", FromEnv(s.trackingId))
    ]
  }

  lemma PairsDistinct(s: Settings, timestampMs: nat)
    ensures DistinctKeys(Pairs(s, timestampMs))
    ensures SignKey !in Keys(Pairs(s, timestampMs))
  {
  }

  lemma PairsKeys(s: Settings, timestampMs: nat)
    ensures Keys(Pairs(s, timestampMs)) == {"app_key", "method", "sign_method", "timestamp", "page_size", "fields", "target_currency", "target_language", "tracking_id"}
  {
    var r := Pairs(s, timestampMs);
    forall i | 0 <= i < |r|
      ensures r[i].key in {"app_key", "method", "sign_method", "timestamp", "page_size", "fields", "target_currency", "target_language", "tracking_id"}
    {
    }
    assert r[0].key in Keys(r) && r[1].key in Keys(r) && r[2].key in Keys(r) && r[3].key in Keys(r) && r[4].key in Keys(r) && r[5].key in Keys(r) && r[6].key in Keys(r) && r[7].key in Keys(r) && r[8].key in Keys(r);
  }

  lemma PairsValues(s: Settings, timestampMs: nat)
    ensures "app_key" in ToMap(Pairs(s, timestampMs)) && ToMap(Pairs(s, timestampMs))["app_key"] == FromEnv(s.appKey)
    ensures "tracking_id" in ToMap(Pairs(s, timestampMs)) && ToMap(Pairs(s, timestampMs))["tracking_id"] == FromEnv(s.trackingId)
    ensures "sign_method" in ToMap(Pairs(s, timestampMs)) && ToMap(Pairs(s, timestampMs))["sign_method"] == PyStr("sha256")
    ensures "timestamp" in ToMap(Pairs(s, timestampMs)) && ToMap(Pairs(s, timestampMs))["timestamp"] == PyInt(timestampMs)
    ensures "method" in ToMap(Pairs(s, timestampMs)) && ToMap(Pairs(s, timestampMs))["method"] == PyStr(Method)
    ensures "page_size" in ToMap(Pairs(s, timestampMs)) && ToMap(Pairs(s, timestampMs))["page_size"] == PyInt(1)
  {
    var r := Pairs(s, timestampMs);
    PairsDistinct(s, timestampMs);
    ToMapMembership(r, r[1]);
    ToMapMembership(r, r[4]);
    ToMapMembership(r, r[0]);
    ToMapMembership(r, r[2]);
    ToMapMembership(r, r[3]);
    ToMapMembership(r, r[8]);
  }

  /**
   The parameters `fetch_product` sends: `sign_method` says `sha256`, yet no
   `sign` pair is ever added and the secret, though read from the environment, is never used.
   */
  function RequestParams(s: Settings, timestampMs: nat): (r: Params)
    ensures DistinctKeys(r)
    ensures SignKey !in Keys(r)
    ensures "app_key" in ToMap(r) && ToMap(r)["app_key"] == FromEnv(s.appKey)
    ensures "tracking_id" in ToMap(r) && ToMap(r)["tracking_id"] == FromEnv(s.trackingId)
    ensures "sign_method" in ToMap(r) && ToMap(r)["sign_method"] == PyStr("sha256")
    ensures "timestamp" in ToMap(r) && Decimal.ToInt(Str(ToMap(r)["timestamp"])) == Some(timestampMs as int)
    ensures Keys(r) == {"app_key", "method", "sign_method", "timestamp", "page_size", "fields", "target_currency", "target_language", "tracking_id"}
    ensures "method" in ToMap(r) && ToMap(r)["method"] == PyStr(Method)
    ensures "timestamp" in ToMap(r) && ToMap(r)["timestamp"] == PyInt(timestampMs)
    ensures "page_size" in ToMap(r) && ToMap(r)["page_size"] == PyInt(1)
    ensures forall secret, sha256 :: !Verifies(r, secret, sha256)
  {
    PairsDistinct(s, timestampMs);
    PairsKeys(s, timestampMs);
    PairsValues(s, timestampMs);
    ToMapKeys(Pairs(s, timestampMs));
    Pairs(s, timestampMs)
  }

  /**
   `fetch_product`. The `requests.get` happens before the `try`, so a transport
   exception escapes; everything after it is caught and ends as `None`.
   `server` is the API's answer to a request.
   */
  function FetchProduct(s: Settings, timestampMs: nat, server: Params -> HttpOutcome): (r: Result<Option<Product>, Crash>)
    ensures r.Err? <==> server(RequestParams(s, timestampMs)).TransportFailure?
    ensures r.Err? ==> r.error == ConnectionError
    ensures r.Ok? ==> r.value == FetchGuarded(server(RequestParams(s, timestampMs)))
  {
    FetchUnguarded(server(RequestParams(s, timestampMs)))
  }

  /** One pass of `main`'s loop: fetch, then send the product if there is one. */
  function LoopIteration(s: Settings, timestampMs: nat, server: Params -> HttpOutcome): (r: Result<Option<Post>, Crash>)
    requires var f := FetchProduct(s, timestampMs, server);
      f.Ok? && f.value.Some? ==> Printable(f.value.value)
    ensures r.Err? <==> FetchProduct(s, timestampMs, server).Err?
    ensures r.Err? ==> r.error == FetchProduct(s, timestampMs, server).error
    ensures r.Ok? ==> (r.value.Some? <==> FetchProduct(s, timestampMs, server).value.Some?)
    ensures r.Ok? && r.value.Some? ==>
      && r.value.value.url == Endpoint(s.telegramToken, "sendPhoto")
      && r.value.value.payload == PhotoPost(FetchProduct(s, timestampMs, server).value.value, s.telegramToken, s.telegramChannel).payload
  {
    SendIfFetched(FetchProduct(s, timestampMs, server), s.telegramToken, s.telegramChannel)
  }
}

=== FILE: sorting.dfy ===
/**
 `sorted(params.items())`. A `dict` never repeats a key, so Python's comparison
 of the `(key, value)` tuples only ever looks at the keys; the model sorts by key.
 */
module Sorting {
  import opened Values
  import opened Strings

  /** Keys strictly ascending in Python's `str` order. */
  predicate StrictlySorted(s: seq<Entry>) {
    forall i, j :: 0 <= i < j < |s| ==> Less(s[i].key, s[j].key)
  }

  /** Places `e` in front of the first pair whose key is larger. */
  function Insert(e: Entry, s: seq<Entry>): seq<Entry>
    decreases |s|
  {
    if |s| == 0 then [e]
    else if Less(e.key, s[0].key) then [e] + s
    else [s[0]] + Insert(e, s[1..])
  }

  /** The pairs of `p` ordered by key. */
  function SortByKey(p: Params): seq<Entry>
    decreases |p|
  {
    if |p| == 0 then [] else Insert(p[0], SortByKey(p[1..]))
  }

  /** Inserting adds exactly the one pair. */
  lemma {:induction false} InsertPermutes(e: Entry, s: seq<Entry>)
    ensures multiset(Insert(e, s)) == multiset(s) + multiset{e}
    decreases |s|
  {
    if |s| > 0 && !Less(e.key, s[0].key) {
      InsertPermutes(e, s[1..]);
      assert s == [s[0]] + s[1..];
    }
  }

  /** Sorting rearranges the pairs: the same pairs, each as often as before. */
  lemma {:induction false} SortPermutes(p: Params)
    ensures multiset(SortByKey(p)) == multiset(p)
    decreases |p|
  {
    if |p| > 0 {
      SortPermutes(p[1..]);
      InsertPermutes(p[0], SortByKey(p[1..]));
      assert p == [p[0]] + p[1..];
    }
  }

  /** A pair below every key of a sorted sequence may go in front of it. */
  lemma ConsSorted(h: Entry, rest: seq<Entry>)
    requires StrictlySorted(rest)
    requires forall x :: x in rest ==> Less(h.key, x.key)
    ensures StrictlySorted([h] + rest)
  {
    var r := [h] + rest;
    forall i, j | 0 <= i < j < |r|
      ensures Less(r[i].key, r[j].key)
    {
      if i > 0 {
        assert r[i] == rest[i - 1] && r[j] == rest[j - 1];
      } else {
        assert r[j] in rest;
      }
    }
  }

  lemma {:induction false} InsertSorted(e: Entry, s: seq<Entry>)
    requires StrictlySorted(s)
    requires forall x :: x in s ==> x.key != e.key
    ensures StrictlySorted(Insert(e, s))
    decreases |s|
  {
    if |s| > 0 {
      if Less(e.key, s[0].key) {
        forall j | 0 <= j < |s|
          ensures Less(e.key, s[j].key)
        {
          if j > 0 {
            LessTransitive(e.key, s[0].key, s[j].key);
          }
        }
      } else {
        LessTotal(e.key, s[0].key);
        InsertSorted(e, s[1..]);
        var rest := Insert(e, s[1..]);
        InsertPermutes(e, s[1..]);
        forall x | x in rest
          ensures Less(s[0].key, x.key)
        {
          assert x in multiset(rest);
          if x != e {
            assert x in s[1..];
          }
        }
        ConsSorted(s[0], rest);
      }
    }
  }

  /** Sorting a `dict`'s pairs gives strictly ascending keys. */
  lemma {:induction false} SortStrictlySorted(p: Params)
    requires DistinctKeys(p)
    ensures StrictlySorted(SortByKey(p))
    decreases |p|
  {
    if |p| > 0 {
      DistinctKeysCons(p);
      SortStrictlySorted(p[1..]);
      var s := SortByKey(p[1..]);
      SortPermutes(p[1..]);
      forall x | x in s
        ensures x.key != p[0].key
      {
        assert x in multiset(p[1..]);
        var i :| 0 <= i < |p[1..]| && p[1..][i] == x;
        assert x.key in Keys(p[1..]);
      }
      InsertSorted(p[0], s);
    }
  }

  lemma FirstIsMember(s: seq<Entry>)
    ensures |s| > 0 ==> s[0] in s
  {
  }

  /** A strictly ascending sequence is the only one of its pairs in that order. */
  lemma {:induction false} SortedUnique(a: seq<Entry>, b: seq<Entry>)
    requires StrictlySorted(a) && StrictlySorted(b)
    requires forall e :: e in a <==> e in b
    ensures a == b
    decreases |a|
  {
    if |a| == 0 {
      FirstIsMember(b);
    } else {
      assert a[0] in b;
      assert |b| > 0;
      assert b[0] in a;
      var k :| 0 <= k < |b| && b[k] == a[0];
      var m :| 0 <= m < |a| && a[m] == b[0];
      if k > 0 {
        if m > 0 {
          LessTransitive(a[0].key, a[m].key, a[0].key);
        }
        LessIrreflexive(a[0].key);
        assert false;
      }
      forall e
        ensures e in a[1..] <==> e in b[1..]
      {
        if e in a[1..] {
          var i :| 1 <= i < |a| && a[i] == e;
          LessIrreflexive(a[0].key);
          assert e != b[0];
          assert e in a && e in b;
          var j :| 0 <= j < |b| && b[j] == e;
          assert b[1..][j - 1] == e;
        }
        if e in b[1..] {
          var i :| 1 <= i < |b| && b[i] == e;
          LessIrreflexive(b[0].key);
          assert e != a[0];
          assert e in b && e in a;
          var j :| 0 <= j < |a| && a[j] == e;
          assert a[1..][j - 1] == e;
        }
      }
      SortedUnique(a[1..], b[1..]);
      assert a == [a[0]] + a[1..] && b == [b[0]] + b[1..];
    }
  }

  /**
   The sorted order depends only on which pairs a `dict` holds: any strictly
   ascending sequence of the same pairs is what sorting produces.
   */
  lemma SortByKeyCharacterised(p: Params, q: seq<Entry>)
    requires DistinctKeys(p) && StrictlySorted(q)
    requires forall e :: e in q <==> e in p
    ensures SortByKey(p) == q
  {
    SortStrictlySorted(p);
    SortPermutes(p);
    var s := SortByKey(p);
    forall e
      ensures e in s <==> e in q
    {
      assert e in s <==> e in multiset(p);
    }
    SortedUnique(s, q);
  }
}

=== FILE: strings.dfy ===
/**
 Python's ordering on `str` values, and the first-occurrence search used to take
 the fixed message templates apart again.
 */
module Strings {
  import opened Wrappers

  /** Python's `a < b` on `str`: code point by code point, a proper prefix first. */
  predicate Less(a: string, b: string)
    decreases |a|
  {
    if |a| == 0 then |b| > 0
    else if |b| == 0 then false
    else if a[0] != b[0] then a[0] < b[0]
    else Less(a[1..], b[1..])
  }

  lemma {:induction false} LessIrreflexive(a: string)
    ensures !Less(a, a)
    decreases |a|
  {
    if |a| > 0 {
      LessIrreflexive(a[1..]);
    }
  }

  lemma {:induction false} LessTransitive(a: string, b: string, c: string)
    requires Less(a, b) && Less(b, c)
    ensures Less(a, c)
    decreases |a|
  {
    if |a| > 0 && a[0] == b[0] && b[0] == c[0] {
      LessTransitive(a[1..], b[1..], c[1..]);
    }
  }

  /** Two different strings are always ordered one way or the other. */
  lemma {:induction false} LessTotal(a: string, b: string)
    requires a != b
    ensures Less(a, b) || Less(b, a)
    decreases |a|
  {
    if |a| > 0 && |b| > 0 && a[0] == b[0] {
      assert a == [a[0]] + a[1..] && b == [b[0]] + b[1..];
      LessTotal(a[1..], b[1..]);
    }
  }

  /** `d` occurs in `s` starting at position `j`. */
  predicate OccursAt(s: string, d: string, j: nat) {
    j + |d| <= |s| && s[j..j + |d|] == d
  }

  /** The position of the first occurrence of `d` in `s` (Python's `str.find`, absent for -1). */
  function IndexOf(s: string, d: string): (r: Option<nat>)
    ensures r.Some? ==> OccursAt(s, d, r.value)
    ensures r.Some? ==> forall j: nat :: j < r.value ==> !OccursAt(s, d, j)
    ensures r.None? ==> forall j: nat :: !OccursAt(s, d, j)
    decreases |s|
  {
    if |s| < |d| then None
    else if s[..|d|] == d then Some(0)
    else
      var rest := IndexOf(s[1..], d);
      assert |s| >= 1;
      assert forall j: nat :: 1 <= j ==> (OccursAt(s, d, j) <==> OccursAt(s[1..], d, j - 1)) by {
        forall j: nat | 1 <= j {
          OccursShifted(s, d, j);
        }
      }
      assert !OccursAt(s, d, 0);
      match rest
      case None => None
      case Some(i) => Some(i + 1)
  }

  lemma OccursShifted(s: string, d: string, j: nat)
    requires 1 <= j && 1 <= |s|
    ensures OccursAt(s, d, j) <==> OccursAt(s[1..], d, j - 1)
  {
    if j + |d| <= |s| {
      var here := s[j..j + |d|];
      var there := s[1..][j - 1..j - 1 + |d|];
      forall k | 0 <= k < |d|
        ensures here[k] == there[k]
      {
        assert here[k] == s[j + k];
        assert there[k] == s[1..][j - 1 + k];
      }
      assert here == there;
    }
  }

  /** Splits `s` around the first occurrence of `d`. */
  function SplitFirst(s: string, d: string): (r: Option<(string, string)>)
    ensures r.Some? ==> s == r.value.0 + d + r.value.1
    ensures r.None? <==> IndexOf(s, d).None?
  {
    match IndexOf(s, d)
    case None => None
    case Some(i) =>
      assert s == s[..i] + s[i..i + |d|] + s[i + |d|..];
      Some((s[..i], s[i + |d|..]))
  }

  /** The rest of `s` after the prefix `p`, if `s` starts with it. */
  function StripPrefix(s: string, p: string): (r: Option<string>)
    ensures r.Some? <==> |p| <= |s| && s[..|p|] == p
    ensures r.Some? ==> s == p + r.value
  {
    if |p| <= |s| && s[..|p|] == p then Some(s[|p|..]) else None
  }

  /** The part of `s` before the suffix `x`, if `s` ends with it. */
  function StripSuffix(s: string, x: string): (r: Option<string>)
    ensures r.Some? <==> |x| <= |s| && s[|s| - |x|..] == x
    ensures r.Some? ==> s == r.value + x
  {
    if |x| <= |s| && s[|s| - |x|..] == x then Some(s[..|s| - |x|]) else None
  }

  /**
   Splitting at the first `d` never cuts later than an occurrence of `d`: the
   text before the split is at most `j` long when `d` occurs at `j`.
   */
  lemma SplitNoLaterThan(s: string, d: string, j: nat)
    requires OccursAt(s, d, j)
    ensures SplitFirst(s, d).Some? && |SplitFirst(s, d).value.0| <= j
  {
    var i := IndexOf(s, d).value;
    assert SplitFirst(s, d).value.0 == s[..i];
  }

  lemma StripPrefixOfConcat(p: string, rest: string)
    ensures StripPrefix(p + rest, p) == Some(rest)
  {
    assert (p + rest)[..|p|] == p;
    assert (p + rest)[|p|..] == rest;
  }

  /**
   When `d` already occurs inside `a`, splitting `a + d + b` at the first `d`
   cuts inside `a`: the text before the split is shorter than `a`.
   */
  lemma SplitCutsShort(a: string, d: string, b: string, j: nat)
    requires OccursAt(a, d, j)
    ensures SplitFirst(a + d + b, d).Some?
    ensures |SplitFirst(a + d + b, d).value.0| < |a| || |d| == 0
  {
    var s := a + d + b;
    assert s[j..j + |d|] == a[j..j + |d|];
    SplitNoLaterThan(s, d, j);
  }

  /**
   When the delimiter's first character does not occur in `a`, splitting
   `a + d + b` at the first `d` gives back `a` and `b`.
   */
  lemma SplitAfterDelimiterFree(a: string, d: string, b: string)
    requires |d| > 0 && d[0] !in a
    ensures SplitFirst(a + d + b, d) == Some((a, b))
  {
    var s := a + d + b;
    assert OccursAt(s, d, |a|) by {
      assert s[|a|..|a| + |d|] == d;
    }
    forall j: nat | j < |a|
      ensures !OccursAt(s, d, j)
    {
      assert s[j] == a[j];
    }
    assert IndexOf(s, d) == Some(|a|);
    assert s[..|a|] == a;
    assert s[|a| + |d|..] == b;
  }
}

=== FILE: telegram.dfy ===
/**
 The bot API requests: the endpoint, the form fields of `sendPhoto` and
 `sendMessage`, and the two fixed message templates, each with the reading
 that takes it apart again.
 */
module Telegram {
  import opened Wrappers
  import opened Values
  import opened JsonValues
  import opened Response
  import Strings

  const ApiBase := "https://api.telegram.org/bot"

  /**
   The `data` dict of a bot API call. `sendPhoto` carries `chat_id`, `photo`,
   `caption` and `parse_mode`; `sendMessage` carries `chat_id`, `text` and
   `parse_mode`. The photo is the JSON value of the product's image url, passed
   through unchanged.
   */
  datatype Payload =
    | PhotoPayload(chatId: EnvVar, photo: Json, caption: string, parseMode: string)
    | MessagePayload(chatId: EnvVar, text: string, parseMode: string)

  /** One `requests.post(url, data=payload)` call. */
  datatype Post = Post(url: string, payload: Payload)

  /** `f"https://api.telegram.org/bot{token}/{apiMethod}"`; an unset token reads `None`. */
  function Endpoint(token: EnvVar, apiMethod: string): (r: string)
    ensures Strings.StripPrefix(r, ApiBase).Some?
    ensures Strings.StripSuffix(Strings.StripPrefix(r, ApiBase).value, "/" + apiMethod) == Some(Str(FromEnv(token)))
  {
    var r := ApiBase + Str(FromEnv(token)) + "/" + apiMethod;
    assert r == ApiBase + (Str(FromEnv(token)) + ("/" + apiMethod));
    r
  }

  /** The announcement a payload carries: the photo caption or the message text. */
  function MessageOf(p: Payload): string {
    match p
    case PhotoPayload(_, _, caption, _) => caption
    case MessagePayload(_, text, _) => text
  }

  // ---------------------------------------------------------------------------
  // Message templates

  const Fire := "\U{1F525}"
  const MoneyBag := "\U{1F4B2}"
  const LinkMark := "\U{1F517}"

  const MdOpen := Fire + " *"
  const MdAfterTitle := "*\n" + MoneyBag + " Price: $"
  const MdAfterPrice := "\n" + LinkMark + " [View Product]("
  const MdClose := ")"

  /** aliexpress_bot's Markdown announcement: bold title, price after a dollar sign, link. */
  function MarkdownMessage(title: string, price: string, url: string): string {
    MdOpen + title + MdAfterTitle + price + MdAfterPrice + url + MdClose
  }

  /** Takes a Markdown announcement apart at the first delimiters after the title and price. */
  function ParseMarkdownMessage(m: string): Option<(string, string, string)> {
    var rest :- Strings.StripPrefix(m, MdOpen);
    var (title, rest1) :- Strings.SplitFirst(rest, MdAfterTitle);
    var (price, rest2) :- Strings.SplitFirst(rest1, MdAfterPrice);
    var url :- Strings.StripSuffix(rest2, MdClose);
    Some((title, price, url))
  }

  /**
   When the title holds no `*` and the price no line break, the announcement
   gives back exactly the title, price and url it was built from.
   */
  lemma MarkdownMessageRoundTrip(title: string, price: string, url: string)
    ensures '*' !in title && '\n' !in price ==>
      ParseMarkdownMessage(MarkdownMessage(title, price, url)) == Some((title, price, url))
  {
    if '*' !in title && '\n' !in price {
      MarkdownRoundTripStep(title, price, url);
    }
  }

  lemma MarkdownRoundTripStep(title: string, price: string, url: string)
    requires '*' !in title && '\n' !in price
    ensures ParseMarkdownMessage(MarkdownMessage(title, price, url)) == Some((title, price, url))
  {
    var tail := url + MdClose;
    var afterTitle := price + MdAfterPrice + tail;
    var rest := title + MdAfterTitle + afterTitle;
    var m := MarkdownMessage(title, price, url);
    assert m == MdOpen + rest;
    assert Strings.StripPrefix(m, MdOpen) == Some(rest);
    assert MdAfterTitle[0] == '*' && MdAfterPrice[0] == '\n';
    Strings.SplitAfterDelimiterFree(title, MdAfterTitle, afterTitle);
    Strings.SplitAfterDelimiterFree(price, MdAfterPrice, tail);
    assert Strings.StripSuffix(tail, MdClose) == Some(url);
  }

  /**
   The message is the template filled in: the opening, the title and the text
   before the price, then the price, then the text before the url, the url and
   the closing bracket, with nothing added or lost.
   */
  lemma MarkdownMessageLayout(title: string, price: string, url: string)
    ensures var m := MarkdownMessage(title, price, url);
      var head := |MdOpen| + |title| + |MdAfterTitle|;
      && |m| == head + |price| + |MdAfterPrice| + |url| + |MdClose|
      && m[..head] == MdOpen + title + MdAfterTitle
      && m[head..head + |price|] == price
      && m[head + |price|..] == MdAfterPrice + url + MdClose
  {
  }

  /**
   A title that itself holds the text between title and price, anywhere in it,
   is cut short at its first such occurrence: the message does not split back
   into what it was built from.
   */
  lemma MarkdownTitleHoldingDelimiter(title: string, price: string, url: string, j: nat)
    requires Strings.OccursAt(title, MdAfterTitle, j)
    ensures ParseMarkdownMessage(MarkdownMessage(title, price, url)) != Some((title, price, url))
  {
    var after := price + MdAfterPrice + url + MdClose;
    var rest := title + MdAfterTitle + after;
    MarkdownShape(title, price, url);
    Strings.StripPrefixOfConcat(MdOpen, rest);
    Strings.SplitCutsShort(title, MdAfterTitle, after, j);
    MarkdownParsedTitle(MarkdownMessage(title, price, url), rest);
  }

  lemma MarkdownShape(title: string, price: string, url: string)
    ensures MarkdownMessage(title, price, url) == MdOpen + (title + MdAfterTitle + (price + MdAfterPrice + url + MdClose))
  {
  }

  /** Whatever the parse returns as title is the text before the first delimiter. */
  lemma MarkdownParsedTitle(whole: string, rest: string)
    requires Strings.StripPrefix(whole, MdOpen) == Some(rest)
    requires Strings.SplitFirst(rest, MdAfterTitle).Some?
    ensures ParseMarkdownMessage(whole).Some? ==> ParseMarkdownMessage(whole).value.0 == Strings.SplitFirst(rest, MdAfterTitle).value.0
  {
  }

  const HtmlOpen := "<b>"
  const HtmlAfterTitle := "</b>\n\n" + MoneyBag + "Price: "
  const HtmlAfterPrice := "\n<a href='"
  const HtmlClose := "'>" + LinkMark + " Buy Now</a>"

  /** The HTML caption of aliexpress_bot_signed and simple-telegram-bot: bold title, price, link. */
  function HtmlCaption(title: string, price: string, url: string): string {
    HtmlOpen + title + HtmlAfterTitle + price + HtmlAfterPrice + url + HtmlClose
  }

  /** Takes an HTML caption apart at the first delimiters after the title and price. */
  function ParseHtmlCaption(c: string): Option<(string, string, string)> {
    var rest :- Strings.StripPrefix(c, HtmlOpen);
    var (title, rest1) :- Strings.SplitFirst(rest, HtmlAfterTitle);
    var (price, rest2) :- Strings.SplitFirst(rest1, HtmlAfterPrice);
    var url :- Strings.StripSuffix(rest2, HtmlClose);
    Some((title, price, url))
  }

  /**
   When the title holds no `<` and the price no line break, the caption gives
   back exactly the title, price and url it was built from.
   */
  lemma HtmlCaptionRoundTrip(title: string, price: string, url: string)
    ensures '<' !in title && '\n' !in price ==>
      ParseHtmlCaption(HtmlCaption(title, price, url)) == Some((title, price, url))
  {
    if '<' !in title && '\n' !in price {
      HtmlRoundTripStep(title, price, url);
    }
  }

  lemma HtmlRoundTripStep(title: string, price: string, url: string)
    requires '<' !in title && '\n' !in price
    ensures ParseHtmlCaption(HtmlCaption(title, price, url)) == Some((title, price, url))
  {
    var tail := url + HtmlClose;
    var afterTitle := price + HtmlAfterPrice + tail;
    var rest := title + HtmlAfterTitle + afterTitle;
    var c := HtmlCaption(title, price, url);
    assert c == HtmlOpen + rest;
    assert Strings.StripPrefix(c, HtmlOpen) == Some(rest);
    assert HtmlAfterTitle[0] == '<' && HtmlAfterPrice[0] == '\n';
    Strings.SplitAfterDelimiterFree(title, HtmlAfterTitle, afterTitle);
    Strings.SplitAfterDelimiterFree(price, HtmlAfterPrice, tail);
    assert Strings.StripSuffix(tail, HtmlClose) == Some(url);
  }

  /**
   The caption is the template filled in: the opening tag, the title and the
   text before the price, then the price, then the link markup around the url.
   */
  lemma HtmlCaptionLayout(title: string, price: string, url: string)
    ensures var c := HtmlCaption(title, price, url);
      var head := |HtmlOpen| + |title| + |HtmlAfterTitle|;
      && |c| == head + |price| + |HtmlAfterPrice| + |url| + |HtmlClose|
      && c[..head] == HtmlOpen + title + HtmlAfterTitle
      && c[head..head + |price|] == price
      && c[head + |price|..] == HtmlAfterPrice + url + HtmlClose
  {
  }

  /**
   A title that itself holds the text between title and price, anywhere in it,
   is cut short at its first such occurrence: the caption does not split back
   into what it was built from.
   */
  lemma HtmlTitleHoldingDelimiter(title: string, price: string, url: string, j: nat)
    requires Strings.OccursAt(title, HtmlAfterTitle, j)
    ensures ParseHtmlCaption(HtmlCaption(title, price, url)) != Some((title, price, url))
  {
    var after := price + HtmlAfterPrice + url + HtmlClose;
    var rest := title + HtmlAfterTitle + after;
    HtmlShape(title, price, url);
    Strings.StripPrefixOfConcat(HtmlOpen, rest);
    Strings.SplitCutsShort(title, HtmlAfterTitle, after, j);
    HtmlParsedTitle(HtmlCaption(title, price, url), rest);
  }

  lemma HtmlShape(title: string, price: string, url: string)
    ensures HtmlCaption(title, price, url) == HtmlOpen + (title + HtmlAfterTitle + (price + HtmlAfterPrice + url + HtmlClose))
  {
  }

  /** Whatever the parse returns as title is the text before the first delimiter. */
  lemma HtmlParsedTitle(whole: string, rest: string)
    requires Strings.StripPrefix(whole, HtmlOpen) == Some(rest)
    requires Strings.SplitFirst(rest, HtmlAfterTitle).Some?
    ensures ParseHtmlCaption(whole).Some? ==> ParseHtmlCaption(whole).value.0 == Strings.SplitFirst(rest, HtmlAfterTitle).value.0
  {
  }

  // ---------------------------------------------------------------------------
  // Requests

  /** The fields of a product that the templates print have a plain `str()`. */
  predicate Printable(p: Product) {
    Scalar(p.title) && Scalar(p.price) && Scalar(p.url)
  }

  /**
   aliexpress_bot's `send_to_telegram`: a photo with the message as caption when
   the image url is truthy, the bare message otherwise; Markdown either way.
   */
  function BotPost(message: string, image: Json, token: EnvVar, channel: EnvVar): (r: Post)
    ensures Truthy(image) <==> r.url == Endpoint(token, "sendPhoto")
    ensures !Truthy(image) <==> r.url == Endpoint(token, "sendMessage")
    ensures Truthy(image) <==> r.payload.PhotoPayload?
    ensures r.payload.PhotoPayload? ==> r.payload.photo == image
    ensures MessageOf(r.payload) == message
    ensures r.payload.chatId == channel
    ensures r.payload.parseMode == "Markdown"
  {
    if Truthy(image) then
      Post(Endpoint(token, "sendPhoto"), PhotoPayload(channel, image, message, "Markdown"))
    else
      Post(Endpoint(token, "sendMessage"), MessagePayload(channel, message, "Markdown"))
  }

  /**
   `send_to_telegram` of aliexpress_bot_signed and simple-telegram-bot: always a
   photo, the product's image url passed through, the HTML caption, HTML mode.
   */
  function PhotoPost(product: Product, token: EnvVar, channel: EnvVar): (r: Post)
    requires Printable(product)
    ensures r.url == Endpoint(token, "sendPhoto")
    ensures r.payload.PhotoPayload?
    ensures r.payload.chatId == channel
    ensures r.payload.photo == product.image
    ensures r.payload.parseMode == "HTML"
    ensures r.payload.caption == HtmlCaption(Display(product.title), Display(product.price), Display(product.url))
    ensures '<' !in Display(product.title) && '\n' !in Display(product.price) ==>
      ParseHtmlCaption(r.payload.caption) == Some((Display(product.title), Display(product.price), Display(product.url)))
  {
    var caption := HtmlCaption(Display(product.title), Display(product.price), Display(product.url));
    HtmlCaptionRoundTrip(Display(product.title), Display(product.price), Display(product.url));
    Post(Endpoint(token, "sendPhoto"), PhotoPayload(channel, product.image, caption, "HTML"))
  }

  /**
   One pass of the `while True` loop of aliexpress_bot_signed and
   simple-telegram-bot, given what `fetch_product` did: an exception that
   escaped it ends the loop, a product is sent as a photo, and `None` sends
   nothing.
   */
  function SendIfFetched(fetched: Result<Option<Product>, Crash>, token: EnvVar, channel: EnvVar): (r: Result<Option<Post>, Crash>)
    requires fetched.Ok? && fetched.value.Some? ==> Printable(fetched.value.value)
    ensures r.Err? <==> fetched.Err?
    ensures r.Err? ==> r.error == fetched.error
    ensures r.Ok? ==> (r.value.Some? <==> fetched.value.Some?)
    ensures r.Ok? && r.value.Some? ==>
      r.value.value == PhotoPost(fetched.value.value, token, channel)
  {
    var product :- fetched;
    match product
    case None => Ok(None)
    case Some(p) => Ok(Some(PhotoPost(p, token, channel)))
  }
}

=== FILE: values.dfy ===
/**
 The Python values that flow into a request: parameter values, environment
 variables, the exceptions that escape, and the insertion-ordered `dict` that
 holds the request parameters.
 */
module Values {
  import opened Wrappers
  import Decimal

  /** A parameter value: `None`, a `str` or an `int`. */
  datatype PyValue = PyNone | PyStr(s: string) | PyInt(i: int)

  /** `os.environ.get(name)`: the variable's text, or `None` when it is unset. */
  type EnvVar = Option<string>

  /** The five environment variables a bot reads at start-up. */
  datatype Settings = Settings(
    appKey: EnvVar,
    appSecret: EnvVar,
    trackingId: EnvVar,
    telegramToken: EnvVar,
    telegramChannel: EnvVar)

  /** The exceptions that can escape a fetch. */
  datatype Crash = TypeError | ConnectionError

  function FromEnv(e: EnvVar): (v: PyValue)
    ensures v.PyNone? <==> e.None?
  {
    match e
    case None => PyNone
    case Some(s) => PyStr(s)
  }

  /** Python's `str(v)`, which is also what an f-string inserts. */
  function Str(v: PyValue): (r: string)
    ensures v.PyStr? ==> r == v.s
    ensures v.PyInt? ==> Decimal.ToInt(r) == Some(v.i)
    ensures v.PyNone? ==> r == "None"
  {
    match v
    case PyNone => "None"
    case PyStr(s) => s
    case PyInt(i) => Decimal.FromIntRoundTrip(i); Decimal.FromInt(i)
  }

  /** One key/value pair of a parameter `dict`. */
  datatype Entry = Entry(key: string, value: PyValue)

  /** A parameter `dict` in insertion order. */
  type Params = seq<Entry>

  function Keys(p: Params): set<string> {
    set i | 0 <= i < |p| :: p[i].key
  }

  /** No key appears twice, as in every Python `dict`. */
  predicate DistinctKeys(p: Params) {
    forall i, j :: 0 <= i < |p| && 0 <= j < |p| && i != j ==> p[i].key != p[j].key
  }

  /** The mapping the `dict` denotes; for a repeated key the later pair wins. */
  function ToMap(p: Params): map<string, PyValue>
    decreases |p|
  {
    if |p| == 0 then map[]
    else
      var m := ToMap(p[1..]);
      if p[0].key in m then m else m[p[0].key := p[0].value]
  }

  /** `d[k] = v`: replaces the value of an existing key in place, else appends the pair. */
  function SetItem(p: Params, k: string, v: PyValue): Params
    decreases |p|
  {
    if |p| == 0 then [Entry(k, v)]
    else if p[0].key == k then [Entry(k, v)] + p[1..]
    else [p[0]] + SetItem(p[1..], k, v)
  }

  lemma {:induction false} KeysOfTail(p: Params)
    requires |p| > 0
    ensures Keys(p) == {p[0].key} + Keys(p[1..])
  {
    forall k | k in Keys(p)
      ensures k in {p[0].key} + Keys(p[1..])
    {
      var i :| 0 <= i < |p| && p[i].key == k;
      if i > 0 {
        assert p[1..][i - 1].key == k;
      }
    }
  }

  /** The mapping's keys are exactly the keys of the pairs. */
  lemma {:induction false} ToMapKeys(p: Params)
    ensures ToMap(p).Keys == Keys(p)
    decreases |p|
  {
    if |p| > 0 {
      ToMapKeys(p[1..]);
      KeysOfTail(p);
    }
  }

  /** In a `dict` without repeated keys, a pair is present exactly when the mapping holds it. */
  lemma {:induction false} ToMapMembership(p: Params, e: Entry)
    requires DistinctKeys(p)
    ensures e in p <==> e.key in ToMap(p) && ToMap(p)[e.key] == e.value
    decreases |p|
  {
    if |p| > 0 {
      DistinctKeysCons(p);
      ToMapMembership(p[1..], e);
      ToMapKeys(p[1..]);
      assert e in p <==> e == p[0] || e in p[1..];
    }
  }

  /**
   Two parameter `dict`s with the same mapping hold the same pairs: the order of
   insertion is the only thing that can differ.
   */
  lemma SameMapSamePairs(p: Params, q: Params)
    requires DistinctKeys(p) && DistinctKeys(q)
    requires ToMap(p) == ToMap(q)
    ensures forall e :: e in p <==> e in q
  {
    forall e: Entry
      ensures e in p <==> e in q
    {
      ToMapMembership(p, e);
      ToMapMembership(q, e);
    }
  }

  /** A `dict` has distinct keys exactly when its first key is new and the rest are distinct. */
  lemma {:induction false} DistinctKeysCons(p: Params)
    requires |p| > 0
    ensures DistinctKeys(p) <==> p[0].key !in Keys(p[1..]) && DistinctKeys(p[1..])
  {
    if p[0].key !in Keys(p[1..]) && DistinctKeys(p[1..]) {
      forall i, j | 0 <= i < |p| && 0 <= j < |p| && i != j
        ensures p[i].key != p[j].key
      {
        if i > 0 && j > 0 {
          assert p[i] == p[1..][i - 1] && p[j] == p[1..][j - 1];
        } else if i == 0 {
          assert p[j] == p[1..][j - 1];
        } else {
          assert p[i] == p[1..][i - 1];
        }
      }
    }
    if DistinctKeys(p) {
      assert DistinctKeys(p[1..]) by {
        forall i, j | 0 <= i < |p[1..]| && 0 <= j < |p[1..]| && i != j
          ensures p[1..][i].key != p[1..][j].key
        {
          assert p[1..][i] == p[i + 1] && p[1..][j] == p[j + 1];
        }
      }
    }
  }

  lemma {:induction false} SetItemKeys(p: Params, k: string, v: PyValue)
    ensures Keys(SetItem(p, k, v)) == Keys(p) + {k}
    decreases |p|
  {
    var r := SetItem(p, k, v);
    KeysOfTail(r);
    if |p| > 0 {
      KeysOfTail(p);
      if p[0].key == k {
        assert r[1..] == p[1..];
      } else {
        SetItemKeys(p[1..], k, v);
        assert r[1..] == SetItem(p[1..], k, v);
      }
    } else {
      assert r[1..] == [];
      assert Keys(r[1..]) == {};
    }
  }

  lemma {:induction false} SetItemDistinct(p: Params, k: string, v: PyValue)
    requires DistinctKeys(p)
    ensures DistinctKeys(SetItem(p, k, v))
    decreases |p|
  {
    var r := SetItem(p, k, v);
    if |p| > 0 {
      DistinctKeysCons(p);
      DistinctKeysCons(r);
      if p[0].key == k {
        assert r[1..] == p[1..];
      } else {
        SetItemDistinct(p[1..], k, v);
        SetItemKeys(p[1..], k, v);
        assert r[1..] == SetItem(p[1..], k, v);
      }
    }
  }

  lemma {:induction false} SetItemMap(p: Params, k: string, v: PyValue)
    requires DistinctKeys(p)
    ensures ToMap(SetItem(p, k, v)) == ToMap(p)[k := v]
    decreases |p|
  {
    if |p| > 0 {
      DistinctKeysCons(p);
      ToMapKeys(p[1..]);
      assert p[0].key !in ToMap(p[1..]);
      if p[0].key == k {
        assert SetItem(p, k, v)[1..] == p[1..];
      } else {
        SetItemMap(p[1..], k, v);
        SetItemMapStep(p, k, v);
      }
    }
  }

  /** The step of `SetItemMap` where the first pair is kept ahead of the assignment. */
  lemma SetItemMapStep(p: Params, k: string, v: PyValue)
    requires |p| > 0 && p[0].key != k && p[0].key !in Keys(p[1..])
    requires ToMap(SetItem(p[1..], k, v)) == ToMap(p[1..])[k := v]
    ensures ToMap(SetItem(p, k, v)) == ToMap(p)[k := v]
  {
    var r := SetItem(p, k, v);
    var t := SetItem(p[1..], k, v);
    SetItemKeys(p[1..], k, v);
    assert r[0] == p[0] && r[1..] == t;
    ToMapCons(p);
    ToMapCons(r);
    UpdatesCommute(ToMap(p[1..]), k, v, p[0].key, p[0].value);
  }

  /** A first pair whose key the rest lacks adds exactly that key to the rest's mapping. */
  lemma ToMapCons(p: Params)
    requires |p| > 0 && p[0].key !in Keys(p[1..])
    ensures ToMap(p) == ToMap(p[1..])[p[0].key := p[0].value]
  {
    ToMapKeys(p[1..]);
  }

  lemma UpdatesCommute(m: map<string, PyValue>, k: string, v: PyValue, k2: string, v2: PyValue)
    requires k != k2
    ensures m[k := v][k2 := v2] == m[k2 := v2][k := v]
  {
  }

  lemma {:induction false} SetItemAppends(p: Params, k: string, v: PyValue)
    requires k !in Keys(p)
    ensures SetItem(p, k, v) == p + [Entry(k, v)]
    decreases |p|
  {
    if |p| > 0 {
      KeysOfTail(p);
      SetItemAppends(p[1..], k, v);
      assert p == [p[0]] + p[1..];
    }
  }

  /**
   `d[k] = v` keeps the keys distinct, changes the mapping at `k` only, and for a
   new key appends exactly one pair, leaving every earlier pair as it was.
   */
  lemma SetItemSpec(p: Params, k: string, v: PyValue)
    requires DistinctKeys(p)
    ensures DistinctKeys(SetItem(p, k, v))
    ensures ToMap(SetItem(p, k, v)) == ToMap(p)[k := v]
    ensures Keys(SetItem(p, k, v)) == Keys(p) + {k}
    ensures k !in Keys(p) ==> SetItem(p, k, v) == p + [Entry(k, v)]
  {
    SetItemDistinct(p, k, v);
    SetItemMap(p, k, v);
    SetItemKeys(p, k, v);
    if k !in Keys(p) {
      SetItemAppends(p, k, v);
    }
  }
}

=== FILE: wrappers.dfy ===
/** Failure-compatible Option and Result, used for Python's `None` returns and raised exceptions. */
module Wrappers {

  /** A value that may be absent; `:-` propagates absence. */
  datatype Option<+T> = None | Some(value: T) {

    predicate IsFailure() {
      None?
    }

    function PropagateFailure<U>(): Option<U>
      requires None?
    {
      None
    }

    function Extract(): T
      requires Some?
    {
      value
    }
  }

  /** Either a value or the error that interrupted the computation. */
  datatype Result<+T, +E> = Ok(value: T) | Err(error: E) {

    predicate IsFailure() {
      Err?
    }

    function PropagateFailure<U>(): Result<U, E>
      requires Err?
    {
      Err(error)
    }

    function Extract(): T
      requires Ok?
    {
      value
    }
  }
}
